=== FILE: README.md ===
# LaTeX to PDF/DOCX converter — a Dafny model

The repository has two Streamlit scripts. Both turn LaTeX sources into PDF
(with pdflatex from MiKTeX) and DOCX (with pandoc):

- `texpro.py` is the configurable converter. Tool paths and the pdflatex flag
  string live in the session. When the PDF phase fails, it reports a one-line
  error summary taken from the compiler output.
- `latex_converter_app.py` is the fixed-path converter. Its paths and flags are
  constants, and it reports no summary.

Both scripts share the same decision logic, and that logic is what this project models:

- how a subprocess run is folded into an `(ok, out, err)` triple;
- how the summary line is cut out of the compiler output;
- which command vectors are built;
- how one compilation assembles its PDF, DOCX, log and summary;
- how a batch of documents is packed into an archive.

The external tools are oracles. A `Tool` maps a command vector and the source
text to a `ToolRun`: how the process ended (`Exited`, `TimedOut` or `Raised`)
and the bytes of the output file it left behind, if any.

Modules:

- `Wrappers` (`wrappers.dfy`): `Option` and `Result`.
- `Process` (`process.dfy`): the process outcome, `RunCommand` and the oracle type.
- `Paths` (`paths.dfy`): `.tex` names, their stem and suffix replacement.
- `Text` (`text.dfy`): the argument-less `split()` applied to the flag string.
- `LogScan` (`log_scan.dfy`): the search for `! (.*?)\n` and the summary line.
- `Toolchain` (`toolchain.dfy`): what both scripts share. This covers source documents, outputs, log blocks, the pandoc command and one tool phase.
- `Archive` (`archive.dfy`): the zip archive as the ordered sequence of entries written, plus the writing loop.
- `TexPro` (`texpro.dfy`): `compile_latex` and `convert_directory` of the configurable script.
- `ConverterApp` (`converter_app.dfy`): the same two functions of the fixed-path script. It also proves that this script behaves like the configurable one under its default settings.
- `UploadNaming` (`upload_naming.dfy`): the names given to outputs by `str.replace(".tex", ...)` in the upload tab (see Findings).

Three behaviours of the code to note:

- The summary is recorded whenever a requested PDF is missing. That includes
  a run that exited with status 0 but left no `.pdf`, not only a failed run.
- The pattern `! (.*?)\n` is not anchored. It fires on the first `! `
  anywhere in the text, not only on a line that begins with `!`.
- Writing two entries with the same name appends a second entry; nothing is
  overwritten. The archive is therefore a sequence, not a map.

## Model

| member | source | states |
|---|---|---|
| Process.RunCommand | texpro.py:36-45 | `ok` holds exactly when the process exited with status 0, and then stdout and stderr pass through unchanged. A timeout gives `(False, "", "❌ Timeout expired.")`. Any other exception gives `(False, "", "❌ Exception: " + message)`. The fixed-path script (latex_converter_app.py:31-41) maps outcomes the same way. |
| Process.OkDeterminesOutcome | texpro.py:41 | A successful triple can only come from an exit with status 0 that printed exactly those streams. |
| Process.AbnormalEndIsReported | texpro.py:42-45 | A timeout or exception never reaches the caller as an exception. It is reported as failure with empty stdout and a stderr that starts with the cross mark and a space. |
| Paths.Stem | texpro.py:97 | The base name of a `.tex` file is non-empty, and appending `.tex` to it gives the file name back. |
| Paths.WithSuffix | texpro.py:68 | `with_suffix` keeps everything before the final `.tex` and puts the new suffix in its place; the length changes accordingly. |
| Paths.StemInjective | texpro.py:97 | Different source names have different stems. |
| Paths.WithSuffixRoundTrip | texpro.py:68 | Replacing the suffix by `.tex` gives the original name back. |
| Text.SplitWhitespace | texpro.py:64 | Every flag produced by `split()` is non-empty and contains no whitespace. Concatenated, the flags are exactly the non-whitespace characters of the flag string, in order. |
| Text.SplitEmptyIffBlank | texpro.py:64 | The flag string yields no flags exactly when it is empty or all whitespace. |
| Text.SplitJoinRoundTrip | texpro.py:64 | Splitting words joined by single spaces gives back exactly those words. |
| Text.SplitBlankPrefix | texpro.py:64 | Leading whitespace adds no flag: the flags of `pad + rest` are those of `rest` when `pad` is all whitespace. |
| Text.SplitWordThenBlank | texpro.py:64 | A word followed by any non-empty run of whitespace (spaces, tabs, line feeds and the other separators `split()` knows) comes out as one flag, and splitting resumes after the run. |
| Text.SplitSeparated | texpro.py:64 | Word boundaries fall exactly at the whitespace runs: for any words, any non-empty whitespace runs between them, and any whitespace before and after, splitting gives back exactly those words. |
| LogScan.SearchFrom | texpro.py:49 | The search returns the leftmost position with `! ` that has a line feed somewhere after it, together with the first line feed after the marker. It returns nothing exactly when no such position exists. |
| LogScan.FindError | texpro.py:49-50 | A group is found iff the text holds a match of `! (.*?)\n`. The group is the text between the marker and the line feed of the leftmost match, and it never contains a line feed. |
| LogScan.ExtractLatexError | texpro.py:47-53 | The summary is `"❌ **Error:** "` followed by the found group, or `"✅ No critical LaTeX error found."` when there is no group. It is never empty. |
| LogScan.FirstMarkerWins | texpro.py:49-51 | If a line feed follows the first `! `, the summary quotes exactly the text between them, whatever comes later. |
| LogScan.NoErrorIff | texpro.py:49-53 | The "no error" line is returned exactly when no `! ` is followed anywhere later by a line feed. Both directions are proved. |
| LogScan.MarkerMidLine | texpro.py:49 | The marker need not start a line: text before it on the same line is skipped. |
| Toolchain.LogBlock | texpro.py:67-78 | A tool's log block is a header line `--- <tool> log ---` between line feeds, then the whole standard output, a line feed, the whole standard error and a final line feed. Both streams can be read back at fixed offsets. The fixed-path script (latex_converter_app.py:54-64) writes the same block. |
| Toolchain.DocxCommand | texpro.py:76 | The pandoc command is `[pandoc_path, filename, "-o", stem + ".docx"]`. The fixed-path script (latex_converter_app.py:61-62) builds the same command. |
| Toolchain.RunPhase | texpro.py:66-70 | An output is picked up exactly when the run exited with status 0 and the file exists, and it is the file's bytes. The log block is `"\n--- <tool> log ---\n" + out + "\n" + err + "\n"`. |
| Archive.DocEntries | texpro.py:98-102 | Each document adds the PDF entry only when the bytes are non-empty, then the DOCX entry likewise, then always the `.log.txt` entry holding the log. |
| Archive.Pack | texpro.py:93-102 | An empty batch writes no entries, and a non-empty batch writes at least one, since every document adds its log entry. |
| Archive.WriteEntries | texpro.py:93-102 | The writing loop produces exactly the packed archive of all items, in input order. The fixed-path script (latex_converter_app.py:79-88) writes the same entries in the same order. |
| Archive.PackAppend | latex_converter_app.py:79-88 | Entries are only appended: the archive of a longer batch extends that of any prefix. |
| Archive.PackNamed | texpro.py:98-102 | Filtered by suffix, the archive holds, in input order, one entry per document whose output of that kind is present. |
| Archive.LogEntryPerItem | latex_converter_app.py:88 | There is exactly one log entry per document, in input order, with that document's log. |
| Archive.OutputEntryCount | texpro.py:98-101 | The number of PDF (or DOCX) entries equals the number of documents with non-empty PDF (or DOCX) bytes. |
| Archive.PackNamesDistinct | texpro.py:97-102 | When base names are distinct, no two entries share a name. |
| TexPro.PdfCommand | texpro.py:64-65 | The command starts with the configured compiler path and ends with the file name. Every argument between them is a single whitespace-free word, and together they hold exactly the non-whitespace characters of the flag string. |
| TexPro.PdfCommandPassesFlags | texpro.py:64-65 | Flags written one word apart reach the compiler as exactly those words, between the compiler path and the file name. |
| TexPro.PdfCommandSpacedFlags | texpro.py:64-65 | However the flags are spaced, with any whitespace runs between them and any whitespace around them, each flag reaches the compiler as one argument, in order, between the compiler path and the file name. |
| TexPro.BlankFlagsAddNothing | texpro.py:64-65 | The command is just `[miktex_path, filename]` exactly when the flag string is blank. |
| TexPro.DefaultFlagWords | texpro.py:29-30 | The default flag string splits into `-interaction=nonstopmode` and `-halt-on-error`. |
| TexPro.PdfStep | texpro.py:63-72 | The PDF phase appends the pdflatex block. It then either keeps the PDF or records the summary of `out + err`. The DOCX field is untouched. |
| TexPro.DocxStep | texpro.py:75-81 | The DOCX phase appends the pandoc block and keeps the DOCX if it was produced. The PDF and the summary are untouched. |
| TexPro.CompileLatex | texpro.py:55-83 | `pdf` is set iff PDF was requested, the run exited with 0 and the `.pdf` exists; likewise for `docx`. |
| TexPro.CompileSummary | texpro.py:69-72 | The summary is `extract_latex_error(out + err)` exactly when a requested PDF is missing, and empty otherwise. |
| TexPro.CompileLog | texpro.py:67-78 | The log is the pdflatex block if PDF was requested, followed by the pandoc block if DOCX was requested, and nothing else. |
| TexPro.NothingRequested | texpro.py:57 | With neither phase requested, the result is no PDF, no DOCX, an empty log and an empty summary. |
| TexPro.PhasesIndependent | texpro.py:63-81 | A compilation with both phases equals the PDF-only and the DOCX-only compilations side by side. The DOCX phase runs even when the PDF phase failed. |
| TexPro.MissingPdfIsExplained | texpro.py:69-72 | When PDF was requested, the PDF is missing exactly when the summary is non-empty. |
| TexPro.ConvertDirectory | texpro.py:86-104 | An empty batch fails with "No .tex files found in folder." and produces no archive. Otherwise the result is the packed archive of every document's compilation, in input order. |
| TexPro.BatchLogs | texpro.py:94-102 | The archive holds one `<stem>.log.txt` entry per document, in input order, with that document's compilation log. |
| TexPro.BatchNamesDistinct | texpro.py:94-102 | Documents with distinct file names never share an archive entry name. |
| ConverterApp.PdfCommand | latex_converter_app.py:52 | The fixed command has four arguments: the MiKTeX compiler path, two single-word flags, then the file name. |
| ConverterApp.PdfCommandIsDefault | latex_converter_app.py:52 | The fixed command `[MIKTEX_PATH, "-interaction=nonstopmode", "-halt-on-error", filename]` is the configurable script's command under its default settings. |
| ConverterApp.PdfStep | latex_converter_app.py:51-57 | The PDF phase appends the pdflatex block and keeps the PDF only when the run exited with 0 and the `.pdf` exists; the DOCX field is untouched. |
| ConverterApp.DocxStep | latex_converter_app.py:60-66 | The DOCX phase appends the pandoc block and keeps the DOCX only when the run exited with 0 and the `.docx` exists; the PDF field is untouched. |
| ConverterApp.CompileLatex | latex_converter_app.py:43-68 | `pdf` is set iff PDF was requested, the run exited with 0 and the `.pdf` exists; likewise for `docx`. |
| ConverterApp.CompileLog | latex_converter_app.py:54-64 | The log is the pdflatex block, if requested, followed by the pandoc block, if requested. |
| ConverterApp.NothingRequested | latex_converter_app.py:45 | With both flags false, the result is no PDF, no DOCX and an empty log. |
| ConverterApp.PhasesIndependent | latex_converter_app.py:51-66 | A failed PDF phase does not skip the DOCX phase. The result is the two single-phase results side by side. |
| ConverterApp.AgreesWithDefaultConfig | latex_converter_app.py:43-68 | For every input, the fixed-path compilation equals the configurable compilation under its default settings, minus the summary. |
| ConverterApp.ConvertDirectory | latex_converter_app.py:71-90 | An empty batch fails with "No .tex files found in directory!" and produces no archive. Otherwise the result is the packed archive of every compilation, in input order. |
| ConverterApp.BatchAgreesWithDefaultConfig | latex_converter_app.py:79-88 | Both scripts write the same archive for the same documents when the configurable one runs with its default settings. |
| UploadNaming.ReplaceAll | texpro.py:156 | `str.replace` scans left to right and rewrites every occurrence, without overlaps: at the first occurrence of the pattern the result is the text before it, then the replacement, then the rest of the string rewritten the same way. A string without the pattern is left unchanged, every string is unchanged when the replacement is the pattern itself, and the length is kept when the replacement is as long as the pattern. |
| UploadNaming.UploadEntryName | texpro.py:156-159 | The entry name rewrites every `.tex` in the upload's name, not only a trailing one: the first `.tex` becomes the suffix and the rest of the name after it is rewritten the same way. A name without `.tex` is kept as it is; when `.tex` occurs only at the end, the entry name is the name with that suffix replaced. A four-character suffix such as `.pdf` keeps the name's length. |
| UploadNaming.InnerTexIsRewritten | texpro.py:156 | As written, the upload tab stores the PDF of `<b>.tex.tex` as `<b>.pdf.pdf`. The stem-based name would be `<b>.tex.pdf`. |
| UploadNaming.UploadNamesCollide | texpro.py:155-159 | As written, the distinct uploads `<b>.tex.tex` and `<b>.pdf.tex` both write their PDF under `<b>.pdf.pdf`. |
| UploadNaming.PlainUploadName | texpro.py:156 | `<b>.pdf.tex` holds `.tex` only at its end, so its PDF is named `<b>.pdf.pdf`. |
| UploadNaming.IntendedEntryName | texpro.py:97-99 | The corrected upload name is the stem followed by the output suffix, as the directory batch names entries. |
| UploadNaming.IntendedNamesDistinct | texpro.py:97-102 | Under the corrected naming, distinct uploads never share an entry name. |
| UploadNaming.AgreeOnPlainNames | texpro.py:156-159 | When `.tex` occurs only as the final suffix, the as-written name equals the corrected one. |

## Left out

- Spawning processes, the 120-second timeout, working directories and decoding bytes with `errors="ignore"`. These are part of the process outcome given to the model (`ProcessOutcome`, `ToolRun`).
- The scratch directory, writing the source file, `Path.exists` and reading the produced files. Whether the file exists and its bytes are folded into the oracle's `ToolRun.produced`.
- TexPro.PhasesIndependent, ConverterApp.PhasesIndependent: each tool is modelled as seeing only the source file, not the files an earlier phase left in the shared scratch directory (texpro.py:58-81, latex_converter_app.py:46-66). pdflatex writes `<stem>.aux`, `<stem>.log` and `<stem>.pdf` there, and a document can write files of its own; pandoc may read them through `\input` or `\include`, and the DOCX existence test sees them. So the real DOCX can differ with and without the PDF phase, and these lemmas promise independence only under the model's assumption that pandoc's run depends on its command and the source text alone.
- Zip and deflate encoding, `BytesIO` and `seek`. The archive is the sequence of entries written.
- Globbing a directory and the order of its results. The batch takes its documents as an input sequence, so the model's order is whatever the glob returned.
- The `FileNotFoundError` is modelled as `Result.Failure` with the same message; exception propagation is not modelled.
- File names that are not plain `.tex` names. Every member requires `IsTexName`: a non-empty stem, the lower-case `.tex` suffix, no directory separator and no colon. The colon is excluded because the scripts target Windows, where it can only mark a drive; on a POSIX system a name holding a colon is an ordinary name, and the model leaves it out as well. For such names `with_suffix` is plain replacement of the last four characters. Three kinds of name are not covered. A bare `.tex` is a dot-file to the path library: it has no suffix, its stem is the whole name, and its outputs are `.tex.pdf` and `.tex.docx`. The model's rule would give it an empty stem, so `IsTexName` excludes it. A drive-relative name such as `C:doc.tex` is read by Windows path handling as the drive `C:` plus `doc.tex`, so its stem is `doc`, not the `C:doc` that the model's rule would give. An upper-case `X.TEX` can arrive from the uploader, and on Windows also from `Path.glob("*.tex")` in `convert_directory` (texpro.py:90, latex_converter_app.py:75), since that glob ignores case there. The model's rule rejects it, because its suffix is not `.tex`.
- All of the Streamlit interface: tabs, buttons, messages, the session-state edits of the configuration (the model passes a `Config` value instead), the `os.path.isfile` checks and the `st.stop()` gate of the fixed-path script, and the inline PDF viewer `show_pdf_inline` (texpro.py:106-110).
- The upload tab's loop (texpro.py:149-162) is modelled only through the names it gives its entries (see Findings). It otherwise repeats `convert_directory`.
- The download-button names built with `filename.replace(".tex", ...)` (texpro.py:135,138; latex_converter_app.py:132,134) follow the same `ReplaceAll` naming. They are not modelled separately.
- Unicode normalisation. The whitespace that `split()` separates on is the fixed set of code points the string library treats as whitespace.
- The regular-expression engine itself is not modelled. `LogScan.SearchFrom` implements the one pattern used, a leftmost match with the shortest group, directly.

## Findings

| source | as written | input that shows it | evidently intended | confidence | as-written member | corrected member |
|---|---|---|---|---|---|---|
| texpro.py:156-159 | The upload tab names each entry with `uploaded.name.replace(".tex", suffix)`, which rewrites every `.tex` in the name. | The uploads `a.tex.tex` and `a.pdf.tex` both store their PDF as `a.pdf.pdf`, so the archive gets two entries of that name. The first one's name also loses its inner `.tex`. | Name entries by stem plus suffix, as `convert_directory` does (`a.tex.pdf` and `a.pdf.pdf`). | medium, not executed | UploadNaming.UploadNamesCollide | UploadNaming.IntendedNamesDistinct |

=== FILE: archive.dfy ===
/** The batch archive. Compression and the container format are not
    modelled: an archive is the sequence of its entries in the order they
    were written, since each write appends a new entry. */
module Archive {
  import opened Wrappers
  import opened Process
  import opened Paths
  import opened Toolchain

  datatype Payload = Binary(bytes: Bytes) | Chars(text: string)

  datatype Entry = Entry(name: string, data: Payload)

  /** The program writes an output only when it is truthy: present and not
      empty. */
  predicate Present(b: Option<Bytes>) {
    b.Some? && |b.value| > 0
  }

  /** One document's contribution: its base name and its outputs. */
  type Item = (string, Outputs)

  /** The entries written for one document, in write order: the PDF if
      present, the DOCX if present, and always the log. */
  function DocEntries(base: string, o: Outputs): (es: seq<Entry>)
    ensures |es| == 1 + (if Present(o.pdf) then 1 else 0) + (if Present(o.docx) then 1 else 0)
    ensures es[|es| - 1] == Entry(base + LogSuffix, Chars(o.log))
    ensures Present(o.pdf) ==> es[0] == Entry(base + PdfSuffix, Binary(o.pdf.value))
    ensures Present(o.docx) ==> es[|es| - 2] == Entry(base + DocxSuffix, Binary(o.docx.value))
  {
    (if Present(o.pdf) then [Entry(base + PdfSuffix, Binary(o.pdf.value))] else [])
    + (if Present(o.docx) then [Entry(base + DocxSuffix, Binary(o.docx.value))] else [])
    + [Entry(base + LogSuffix, Chars(o.log))]
  }

  /** The archive after writing every item in order. */
  function Pack(items: seq<Item>): (es: seq<Entry>)
    ensures es == [] <==> items == []
    decreases |items|
  {
    if items == [] then []
    else Pack(items[..|items| - 1]) + DocEntries(items[|items| - 1].0, items[|items| - 1].1)
  }

  /** The writing loop: for each item, the optional PDF entry, the optional
      DOCX entry, then the log entry, appended to the open archive. */
  method WriteEntries(items: seq<Item>) returns (zout: seq<Entry>)
    ensures zout == Pack(items)
  {
    zout := [];
    var i := 0;
    while i < |items|
      invariant 0 <= i <= |items|
      invariant zout == Pack(items[..i])
    {
      var (base, res) := items[i];
      var before := zout;
      if Present(res.pdf) {
        zout := zout + [Entry(base + PdfSuffix, Binary(res.pdf.value))];
      }
      if Present(res.docx) {
        zout := zout + [Entry(base + DocxSuffix, Binary(res.docx.value))];
      }
      zout := zout + [Entry(base + LogSuffix, Chars(res.log))];
      assert zout == before + DocEntries(base, res);
      assert items[..i + 1][..i] == items[..i];
      i := i + 1;
    }
    assert items[..i] == items;
  }

  /** Packing is append-only: the entries of a longer batch extend those of
      any prefix, and nothing written earlier is removed or reordered. */
  lemma {:induction false} PackAppend(a: seq<Item>, b: seq<Item>)
    ensures Pack(a + b) == Pack(a) + Pack(b)
    decreases |b|
  {
    if b == [] {
      assert a + b == a;
    } else {
      var init := b[..|b| - 1];
      assert (a + b)[..|a + b| - 1] == a + init;
      assert (a + b)[|a + b| - 1] == b[|b| - 1];
      PackAppend(a, init);
    }
  }

  predicate EndsWith(s: string, suffix: string) {
    |suffix| <= |s| && s[|s| - |suffix|..] == suffix
  }

  predicate IsOutputSuffix(suffix: string) {
    suffix == PdfSuffix || suffix == DocxSuffix || suffix == LogSuffix
  }

  /** The entries of `es` whose name ends with `suffix`, in order. */
  function Named(es: seq<Entry>, suffix: string): seq<Entry> {
    if es == [] then []
    else if EndsWith(es[0].name, suffix) then [es[0]] + Named(es[1..], suffix)
    else Named(es[1..], suffix)
  }

  lemma {:induction false} NamedAppend(a: seq<Entry>, b: seq<Entry>, suffix: string)
    ensures Named(a + b, suffix) == Named(a, suffix) + Named(b, suffix)
    decreases |a|
  {
    if a == [] {
      assert a + b == b;
    } else {
      assert (a + b)[1..] == a[1..] + b;
      NamedAppend(a[1..], b, suffix);
    }
  }

  /** The three output suffixes end in different characters, so a name
      carries exactly one of them. */
  lemma SuffixesExclusive(base: string, s: string, t: string)
    requires IsOutputSuffix(s) && IsOutputSuffix(t)
    ensures EndsWith(base + s, t) <==> s == t
  {
    var n := base + s;
    assert n[|n| - 1] == s[|s| - 1];
    assert n[|base|..] == s;
    if EndsWith(n, t) {
      assert n[|n| - 1] == t[|t| - 1];
    }
  }

  /** A name built from a base and an output suffix gives both back. */
  lemma SuffixedNameInjective(b1: string, s1: string, b2: string, s2: string)
    requires IsOutputSuffix(s1) && IsOutputSuffix(s2)
    requires b1 + s1 == b2 + s2
    ensures b1 == b2 && s1 == s2
  {
    SuffixesExclusive(b1, s1, s2);
    SuffixesExclusive(b2, s2, s2);
    assert b1 == (b1 + s1)[..|b1|];
    assert b2 == (b2 + s2)[..|b2|];
  }

  /** The one entry, or none, that `o` yields under `suffix`. */
  function Expected(base: string, o: Outputs, suffix: string): seq<Entry>
    requires IsOutputSuffix(suffix)
  {
    if suffix == PdfSuffix then
      (if Present(o.pdf) then [Entry(base + PdfSuffix, Binary(o.pdf.value))] else [])
    else if suffix == DocxSuffix then
      (if Present(o.docx) then [Entry(base + DocxSuffix, Binary(o.docx.value))] else [])
    else [Entry(base + LogSuffix, Chars(o.log))]
  }

  lemma NamedSingle(e: Entry, base: string, s: string, suffix: string)
    requires IsOutputSuffix(s) && IsOutputSuffix(suffix)
    requires e.name == base + s
    ensures Named([e], suffix) == if s == suffix then [e] else []
  {
    SuffixesExclusive(base, s, suffix);
    assert [e][1..] == [];
  }

  lemma DocNamed(base: string, o: Outputs, suffix: string)
    requires IsOutputSuffix(suffix)
    ensures Named(DocEntries(base, o), suffix) == Expected(base, o, suffix)
  {
    var pdf := if Present(o.pdf) then [Entry(base + PdfSuffix, Binary(o.pdf.value))] else [];
    var docx := if Present(o.docx) then [Entry(base + DocxSuffix, Binary(o.docx.value))] else [];
    var log := [Entry(base + LogSuffix, Chars(o.log))];
    NamedAppend(pdf + docx, log, suffix);
    NamedAppend(pdf, docx, suffix);
    if Present(o.pdf) {
      NamedSingle(pdf[0], base, PdfSuffix, suffix);
    }
    if Present(o.docx) {
      NamedSingle(docx[0], base, DocxSuffix, suffix);
    }
    NamedSingle(log[0], base, LogSuffix, suffix);
  }

  /** The entries a batch calls for under `suffix`, document by document. */
  function ExpectedAll(items: seq<Item>, suffix: string): seq<Entry>
    requires IsOutputSuffix(suffix)
    decreases |items|
  {
    if items == [] then []
    else
      var last := items[|items| - 1];
      ExpectedAll(items[..|items| - 1], suffix) + Expected(last.0, last.1, suffix)
  }

  /** Selecting the archive's entries by suffix gives, in input order, one
      entry per document whose output of that kind is present (for logs:
      one per document). */
  lemma {:induction false} PackNamed(items: seq<Item>, suffix: string)
    requires IsOutputSuffix(suffix)
    ensures Named(Pack(items), suffix) == ExpectedAll(items, suffix)
    decreases |items|
  {
    if items != [] {
      var init := items[..|items| - 1];
      var last := items[|items| - 1];
      PackNamed(init, suffix);
      NamedAppend(Pack(init), DocEntries(last.0, last.1), suffix);
      DocNamed(last.0, last.1, suffix);
    }
  }

  /** Every document gets exactly one log entry, in input order, holding
      its full log, whether or not its outputs were produced. */
  lemma {:induction false} LogEntryPerItem(items: seq<Item>)
    ensures |Named(Pack(items), LogSuffix)| == |items|
    ensures forall i :: 0 <= i < |items| ==>
      Named(Pack(items), LogSuffix)[i] == Entry(items[i].0 + LogSuffix, Chars(items[i].1.log))
    decreases |items|
  {
    PackNamed(items, LogSuffix);
    if items != [] {
      var init := items[..|items| - 1];
      LogEntryPerItem(init);
      PackNamed(init, LogSuffix);
      assert forall i :: 0 <= i < |init| ==> init[i] == items[i];
    }
  }

  /** The number of documents whose output selected by `suffix` is present. */
  function CountPresent(items: seq<Item>, suffix: string): nat
    requires suffix == PdfSuffix || suffix == DocxSuffix
    decreases |items|
  {
    if items == [] then 0
    else
      var o := items[|items| - 1].1;
      var here := if suffix == PdfSuffix then Present(o.pdf) else Present(o.docx);
      CountPresent(items[..|items| - 1], suffix) + (if here then 1 else 0)
  }

  /** There are as many PDF (DOCX) entries as documents with a non-empty PDF
      (DOCX): a failed document costs its outputs, never its log. */
  lemma {:induction false} OutputEntryCount(items: seq<Item>, suffix: string)
    requires suffix == PdfSuffix || suffix == DocxSuffix
    ensures |Named(Pack(items), suffix)| == CountPresent(items, suffix)
    decreases |items|
  {
    PackNamed(items, suffix);
    if items != [] {
      var init := items[..|items| - 1];
      OutputEntryCount(init, suffix);
      PackNamed(init, suffix);
    }
  }

  /** Entry `e` is one of the names derived from `base`. */
  predicate DerivedFrom(e: Entry, base: string) {
    e.name == base + PdfSuffix || e.name == base + DocxSuffix || e.name == base + LogSuffix
  }

  /** The output suffix a derived entry name carries. */
  function SuffixOf(e: Entry, base: string): (s: string)
    requires DerivedFrom(e, base)
    ensures IsOutputSuffix(s) && e.name == base + s
  {
    if e.name == base + PdfSuffix then PdfSuffix
    else if e.name == base + DocxSuffix then DocxSuffix
    else LogSuffix
  }

  lemma {:induction false} PackOrigin(items: seq<Item>)
    ensures forall a :: 0 <= a < |Pack(items)| ==>
      exists i :: 0 <= i < |items| && DerivedFrom(Pack(items)[a], items[i].0)
    decreases |items|
  {
    if items != [] {
      var init := items[..|items| - 1];
      var last := items[|items| - 1];
      var es := DocEntries(last.0, last.1);
      assert Pack(items) == Pack(init) + es;
      PackOrigin(init);
      forall a | 0 <= a < |Pack(items)|
        ensures exists i :: 0 <= i < |items| && DerivedFrom(Pack(items)[a], items[i].0)
      {
        if a < |Pack(init)| {
          var i :| 0 <= i < |init| && DerivedFrom(Pack(init)[a], init[i].0);
          assert Pack(items)[a] == Pack(init)[a];
          assert init[i] == items[i];
          assert DerivedFrom(Pack(items)[a], items[i].0);
        } else {
          var e := Pack(items)[a];
          assert e == es[a - |Pack(init)|];
          assert DerivedFrom(e, last.0);
          assert DerivedFrom(Pack(items)[a], items[|items| - 1].0);
        }
      }
    } else {
      assert Pack(items) == [];
    }
  }

  /** With distinct base names, no two entries of the archive share a name:
      at most one entry per document and kind of output. */
  lemma {:induction false} PackNamesDistinct(items: seq<Item>)
    requires forall i, j :: 0 <= i < j < |items| ==> items[i].0 != items[j].0
    ensures forall a, b :: 0 <= a < b < |Pack(items)| ==> Pack(items)[a].name != Pack(items)[b].name
    decreases |items|
  {
    if items != [] {
      var init := items[..|items| - 1];
      var last := items[|items| - 1];
      var es := DocEntries(last.0, last.1);
      var p := Pack(init);
      PackNamesDistinct(init);
      PackOrigin(init);
      forall a, b | 0 <= a < b < |Pack(items)|
        ensures Pack(items)[a].name != Pack(items)[b].name
      {
        var ea, eb := Pack(items)[a], Pack(items)[b];
        if b < |p| {
          assert ea == p[a] && eb == p[b];
        } else if a >= |p| {
          DocNamesDistinct(last.0, last.1, a - |p|, b - |p|);
        } else {
          assert ea == p[a];
          var i :| 0 <= i < |init| && DerivedFrom(p[a], init[i].0);
          var s := SuffixOf(ea, init[i].0);
          assert eb == es[b - |p|];
          var t := SuffixOf(eb, last.0);
          assert init[i] == items[i];
          if ea.name == eb.name {
            SuffixedNameInjective(init[i].0, s, last.0, t);
          }
        }
      }
    }
  }

  lemma DocNamesDistinct(base: string, o: Outputs, a: nat, b: nat)
    requires a < b < |DocEntries(base, o)|
    ensures DocEntries(base, o)[a].name != DocEntries(base, o)[b].name
  {
    var es := DocEntries(base, o);
    var sa := if Present(o.pdf) && a == 0 then PdfSuffix
      else if a == |es| - 1 then LogSuffix else DocxSuffix;
    var sb := if b == |es| - 1 then LogSuffix else DocxSuffix;
    assert es[a].name == base + sa;
    assert es[b].name == base + sb;
    if es[a].name == es[b].name {
      SuffixedNameInjective(base, sa, base, sb);
    }
  }
}

=== FILE: converter_app.dfy ===
/** The fixed-path converter (latex_converter_app.py): the tool paths and
    the pdflatex flags are constants, and a compilation reports outputs and
    log only, with no error summary. */
module ConverterApp {
  import opened Wrappers
  import opened Process
  import opened Paths
  import opened Toolchain
  import opened Archive
  import opened Text
  import TexPro

  const MiktexPath := "C:\\Program Files\\MiKTeX\\miktex\\bin\\x64\\pdflatex.exe"
  const PandocPath := "C:\\Program Files\\Pandoc\\pandoc.exe"

  const NoTexFilesMessage := "No .tex files found in directory!"

  /** The typesetting command with its two fixed flags: the compiler, two
      single-word flags, then the source file name. */
  function PdfCommand(filename: string): (cmd: seq<string>)
    requires IsTexName(filename)
    ensures |cmd| == 4 && cmd[0] == MiktexPath && cmd[3] == filename
    ensures forall i :: 1 <= i < 3 ==> IsWord(cmd[i])
  {
    var cmd := [MiktexPath, "-interaction=nonstopmode", "-halt-on-error", filename];
    TexPro.DefaultFlagsAreWords();
    assert cmd[1..3] == TexPro.DefaultFlags;
    cmd
  }

  /** The fixed command is the configurable converter's command under its
      default settings. */
  lemma PdfCommandIsDefault(filename: string)
    requires IsTexName(filename)
    ensures PdfCommand(filename) == TexPro.PdfCommand(TexPro.DefaultConfig, filename)
  {
    TexPro.DefaultFlagWords();
  }

  /** The PDF phase as an update of the outputs: append the pdflatex log
      block and keep the PDF if produced. The DOCX field is left alone. */
  function PdfStep(o: Outputs, code: string, filename: string, pdflatex: Tool): (o': Outputs)
    requires IsTexName(filename)
    ensures var run := pdflatex(PdfCommand(filename), code);
      var res := RunCommand(run.outcome);
      && o'.docx == o.docx
      && o'.log == o.log + LogBlock("pdflatex", res.out, res.err)
      && o'.pdf == (if Produced(run) then run.produced else o.pdf)
  {
    var ph := RunPhase(pdflatex, "pdflatex", PdfCommand(filename), code);
    var logged := o.(log := o.log + ph.block);
    if ph.output.Some? then logged.(pdf := ph.output) else logged
  }

  /** The DOCX phase as an update of the outputs: append the pandoc log
      block and keep the DOCX if produced. The PDF field is left alone. */
  function DocxStep(o: Outputs, code: string, filename: string, pandoc: Tool): (o': Outputs)
    requires IsTexName(filename)
    ensures var run := pandoc(DocxCommand(PandocPath, filename), code);
      var res := RunCommand(run.outcome);
      && o'.pdf == o.pdf
      && o'.log == o.log + LogBlock("pandoc", res.out, res.err)
      && o'.docx == (if Produced(run) then run.produced else o.docx)
  {
    var ph := RunPhase(pandoc, "pandoc", DocxCommand(PandocPath, filename), code);
    var logged := o.(log := o.log + ph.block);
    if ph.output.Some? then logged.(docx := ph.output) else logged
  }

  /** Compiles `code`, saved as `filename`, with the requested phases: the
      PDF phase first, then the DOCX phase, which runs whatever the PDF
      phase did. Each phase appends its log block and keeps its output file
      only when the tool exited with status 0 and the file exists. */
  function CompileLatex(code: string, filename: string, makePdf: bool, makeDocx: bool,
                        pdflatex: Tool, pandoc: Tool): (r: Outputs)
    requires IsTexName(filename)
    ensures var run := pdflatex(PdfCommand(filename), code);
      r.pdf == if makePdf && Produced(run) then run.produced else None
    ensures var run := pandoc(DocxCommand(PandocPath, filename), code);
      r.docx == if makeDocx && Produced(run) then run.produced else None
  {
    var start := Outputs(None, None, "");
    var afterPdf := if makePdf then PdfStep(start, code, filename, pdflatex) else start;
    if makeDocx then DocxStep(afterPdf, code, filename, pandoc) else afterPdf
  }

  /** The text of the pdflatex log block of a compilation. */
  function PdfBlock(code: string, filename: string, pdflatex: Tool): string
    requires IsTexName(filename)
  {
    var res := RunCommand(pdflatex(PdfCommand(filename), code).outcome);
    LogBlock("pdflatex", res.out, res.err)
  }

  /** The text of the pandoc log block of a compilation. */
  function DocxBlock(code: string, filename: string, pandoc: Tool): string
    requires IsTexName(filename)
  {
    var res := RunCommand(pandoc(DocxCommand(PandocPath, filename), code).outcome);
    LogBlock("pandoc", res.out, res.err)
  }

  /** The log holds the pdflatex block when the PDF was requested, then the
      pandoc block when the DOCX was requested, and nothing else. */
  lemma CompileLog(code: string, filename: string, makePdf: bool, makeDocx: bool,
                   pdflatex: Tool, pandoc: Tool)
    requires IsTexName(filename)
    ensures CompileLatex(code, filename, makePdf, makeDocx, pdflatex, pandoc).log
         == (if makePdf then PdfBlock(code, filename, pdflatex) else "")
          + (if makeDocx then DocxBlock(code, filename, pandoc) else "")
  {
    var pdfPart := if makePdf then PdfBlock(code, filename, pdflatex) else "";
    assert "" + pdfPart == pdfPart;
    assert pdfPart + "" == pdfPart;
  }

  /** With no phase requested nothing runs: no outputs and an empty log. */
  lemma NothingRequested(code: string, filename: string, pdflatex: Tool, pandoc: Tool)
    requires IsTexName(filename)
    ensures CompileLatex(code, filename, false, false, pdflatex, pandoc) == Outputs(None, None, "")
  {
  }

  /** A compilation with both phases is the PDF-only compilation and the
      DOCX-only compilation side by side, with the PDF log block first. */
  lemma PhasesIndependent(code: string, filename: string, makePdf: bool, makeDocx: bool,
                          pdflatex: Tool, pandoc: Tool)
    requires IsTexName(filename)
    ensures var both := CompileLatex(code, filename, makePdf, makeDocx, pdflatex, pandoc);
      var pdfOnly := CompileLatex(code, filename, makePdf, false, pdflatex, pandoc);
      var docxOnly := CompileLatex(code, filename, false, makeDocx, pdflatex, pandoc);
      both == Outputs(pdfOnly.pdf, docxOnly.docx, pdfOnly.log + docxOnly.log)
  {
    CompileLog(code, filename, makePdf, makeDocx, pdflatex, pandoc);
    CompileLog(code, filename, makePdf, false, pdflatex, pandoc);
    CompileLog(code, filename, false, makeDocx, pdflatex, pandoc);
    var pdfPart := if makePdf then PdfBlock(code, filename, pdflatex) else "";
    var docxPart := if makeDocx then DocxBlock(code, filename, pandoc) else "";
    assert pdfPart + "" == pdfPart;
    assert "" + docxPart == docxPart;
  }

  /** The fixed-path converter behaves as the configurable one does under
      its default settings, minus the error summary: same outputs, same
      log. */
  lemma AgreesWithDefaultConfig(code: string, filename: string, makePdf: bool, makeDocx: bool,
                                pdflatex: Tool, pandoc: Tool)
    requires IsTexName(filename)
    ensures CompileLatex(code, filename, makePdf, makeDocx, pdflatex, pandoc)
         == TexPro.CompileLatex(TexPro.DefaultConfig, code, filename, makePdf, makeDocx, pdflatex, pandoc).AsOutputs()
  {
    PdfCommandIsDefault(filename);
    CompileLog(code, filename, makePdf, makeDocx, pdflatex, pandoc);
    TexPro.CompileLog(TexPro.DefaultConfig, code, filename, makePdf, makeDocx, pdflatex, pandoc);
  }

  /** The (base name, outputs) pairs the batch packs, one per document. */
  function Compiled(docs: seq<SourceDoc>, makePdf: bool, makeDocx: bool,
                    pdflatex: Tool, pandoc: Tool): seq<Item>
    requires forall i :: 0 <= i < |docs| ==> IsTexName(docs[i].name)
  {
    seq(|docs|, i requires 0 <= i < |docs| =>
      (Stem(docs[i].name), CompileLatex(docs[i].text, docs[i].name, makePdf, makeDocx, pdflatex, pandoc)))
  }

  /** Converts every document and packs the results; an empty batch is an
      error and produces no archive. */
  method ConvertDirectory(docs: seq<SourceDoc>, makePdf: bool, makeDocx: bool,
                          pdflatex: Tool, pandoc: Tool)
    returns (r: Result<seq<Entry>, string>)
    requires forall i :: 0 <= i < |docs| ==> IsTexName(docs[i].name)
    ensures r.Failure? <==> docs == []
    ensures r.Failure? ==> r.error == NoTexFilesMessage
    ensures r.Success? ==> r.value == Pack(Compiled(docs, makePdf, makeDocx, pdflatex, pandoc))
  {
    if docs == [] {
      return Failure(NoTexFilesMessage);
    }
    var zout := WriteEntries(Compiled(docs, makePdf, makeDocx, pdflatex, pandoc));
    return Success(zout);
  }

  /** Both converters write the same archive for the same documents when the
      configurable one runs with its default settings. */
  lemma BatchAgreesWithDefaultConfig(docs: seq<SourceDoc>, makePdf: bool, makeDocx: bool,
                                     pdflatex: Tool, pandoc: Tool)
    requires forall i :: 0 <= i < |docs| ==> IsTexName(docs[i].name)
    ensures Pack(Compiled(docs, makePdf, makeDocx, pdflatex, pandoc))
         == Pack(TexPro.Compiled(TexPro.DefaultConfig, docs, makePdf, makeDocx, pdflatex, pandoc))
  {
    var mine := Compiled(docs, makePdf, makeDocx, pdflatex, pandoc);
    var theirs := TexPro.Compiled(TexPro.DefaultConfig, docs, makePdf, makeDocx, pdflatex, pandoc);
    forall i | 0 <= i < |docs|
      ensures mine[i] == theirs[i]
    {
      AgreesWithDefaultConfig(docs[i].text, docs[i].name, makePdf, makeDocx, pdflatex, pandoc);
    }
    assert mine == theirs;
  }
}

=== FILE: log_scan.dfy ===
/** Error-line extraction from a compiler log. The program searches the log
    with the regular expression `! (.*?)\n`: the marker `!` followed by a
    space, anywhere in the text (not only at the start of a line), then the
    shortest run of non-newline characters up to a line feed. The first
    match wins; its captured run becomes the error summary. */
module LogScan {
  import opened Wrappers

  const ErrorPrefix := "\U{274C} **Error:** "
  const NoErrorMessage := "\U{2705} No critical LaTeX error found."

  /** The two-character marker `! ` starts at position `p`. */
  predicate MarkerAt(log: string, p: int) {
    0 <= p && p + 2 <= |log| && log[p] == '!' && log[p + 1] == ' '
  }

  /** `log[p..q+1]` is a match of the pattern: the marker at `p`, a line feed
      at `q`, and no line feed in between (the pattern's `.` excludes it). */
  ghost predicate IsMatch(log: string, p: int, q: int) {
    && MarkerAt(log, p)
    && p + 2 <= q < |log|
    && log[q] == '\n'
    && forall k :: p + 2 <= k < q ==> log[k] != '\n'
  }

  /** The first line feed at or after `j`. */
  function NextNewline(log: string, j: nat): (k: Option<nat>)
    requires j <= |log|
    ensures k.Some? ==> j <= k.value < |log| && log[k.value] == '\n'
    ensures k.Some? ==> forall m :: j <= m < k.value ==> log[m] != '\n'
    ensures k.None? ==> forall m :: j <= m < |log| ==> log[m] != '\n'
    decreases |log| - j
  {
    if j == |log| then None
    else if log[j] == '\n' then Some(j)
    else NextNewline(log, j + 1)
  }

  /** The leftmost match starting at or after `i`, as the search tries start
      positions left to right: at each one it needs the marker and then a
      line feed somewhere after it. */
  function SearchFrom(log: string, i: nat): (m: Option<(nat, nat)>)
    requires i <= |log|
    ensures m.Some? ==> i <= m.value.0 && IsMatch(log, m.value.0, m.value.1)
    ensures m.Some? ==> forall p, q :: i <= p < m.value.0 ==> !IsMatch(log, p, q)
    ensures m.None? ==> forall p, q :: i <= p ==> !IsMatch(log, p, q)
    decreases |log| - i
  {
    if i + 2 > |log| then None
    else if MarkerAt(log, i) then
      match NextNewline(log, i + 2)
      case Some(q) => Some((i, q))
      case None => SearchFrom(log, i + 1)
    else SearchFrom(log, i + 1)
  }

  /** A start position fixes the match: the line feed is the first one after
      the marker. */
  lemma MatchEndUnique(log: string, p: int, q: int, q': int)
    requires IsMatch(log, p, q) && IsMatch(log, p, q')
    ensures q == q'
  {
  }

  /** The captured group of the first match, if there is one. A group is
      found exactly when the log holds a match; the group is the text of the
      leftmost match between its marker and its line feed, and so never
      contains a line feed. */
  function FindError(log: string): (r: Option<string>)
    ensures r.None? <==> forall p, q :: !IsMatch(log, p, q)
    ensures r.Some? ==> exists p, q ::
      && IsMatch(log, p, q)
      && (forall p', q' :: p' < p ==> !IsMatch(log, p', q'))
      && r.value == log[p + 2..q]
    ensures r.Some? ==> forall k :: 0 <= k < |r.value| ==> r.value[k] != '\n'
  {
    match SearchFrom(log, 0)
    case Some((p, q)) => Some(log[p + 2..q])
    case None => None
  }

  /** The one-line summary shown to the user: it either quotes a found
      group after the error prefix or says no error was found, and it is
      never empty. */
  function ExtractLatexError(log: string): (r: string)
    ensures FindError(log).Some? ==> r == ErrorPrefix + FindError(log).value
    ensures FindError(log).None? ==> r == NoErrorMessage
    ensures r != ""
  {
    match FindError(log)
    case Some(c) => ErrorPrefix + c
    case None => NoErrorMessage
  }

  /** The first marker in the log decides: if a line feed follows it, the
      summary quotes exactly the text between the marker and that line feed,
      whatever comes later. */
  lemma FirstMarkerWins(log: string, p: nat, q: nat)
    requires MarkerAt(log, p)
    requires forall p' :: 0 <= p' < p ==> !MarkerAt(log, p')
    requires p + 2 <= q < |log| && log[q] == '\n'
    requires forall k :: p + 2 <= k < q ==> log[k] != '\n'
    ensures ExtractLatexError(log) == ErrorPrefix + log[p + 2..q]
  {
    assert IsMatch(log, p, q);
    var m := SearchFrom(log, 0);
    assert m.Some?;
    var (p0, q0) := m.value;
    assert !(p < p0);
    assert !(p0 < p);
    MatchEndUnique(log, p, q, q0);
  }

  /** The summary reports "no error" exactly when no marker is followed,
      anywhere later in the log, by a line feed: in particular when there is
      no marker at all, or the markers all sit on an unterminated last line. */
  lemma NoErrorIff(log: string)
    ensures ExtractLatexError(log) == NoErrorMessage <==>
      forall p, q :: MarkerAt(log, p) && p + 2 <= q < |log| ==> log[q] != '\n'
  {
    if FindError(log).Some? {
      var s := ExtractLatexError(log);
      assert s[0] != NoErrorMessage[0];
      var p, q :| IsMatch(log, p, q);
    } else {
      forall p, q | MarkerAt(log, p) && p + 2 <= q < |log|
        ensures log[q] != '\n'
      {
        if log[q] == '\n' {
          var nl := NextNewline(log, p + 2);
          assert IsMatch(log, p, nl.value);
        }
      }
    }
  }

  /** The marker need not start a line: text before it on the same line is
      skipped, and the message after it is quoted. */
  lemma MarkerMidLine(before: string, msg: string, after: string)
    requires forall k :: 0 <= k < |before| ==> before[k] != '!'
    requires forall k :: 0 <= k < |msg| ==> msg[k] != '\n'
    ensures ExtractLatexError(before + "! " + msg + "\n" + after) == ErrorPrefix + msg
  {
    var log := before + "! " + msg + "\n" + after;
    var p := |before|;
    var q := |before| + 2 + |msg|;
    assert log[p] == '!' && log[p + 1] == ' ' && log[q] == '\n';
    forall p' | 0 <= p' < p
      ensures !MarkerAt(log, p')
    {
      assert log[p'] == before[p'];
    }
    forall k | p + 2 <= k < q
      ensures log[k] != '\n'
    {
      assert log[k] == msg[k - p - 2];
    }
    FirstMarkerWins(log, p, q);
    assert log[p + 2..q] == msg;
  }
}

=== FILE: paths.dfy ===
/** File naming inside the scratch directory. A source file is named
    `<stem>.tex`; the tools write `<stem>.pdf` and `<stem>.docx` beside it,
    and the archive uses `<stem>` as the base of every entry name. */
module Paths {

  const TexSuffix := ".tex"

  /** The suffixes of the files the tools write beside the source, and of
      the log entry in the batch archive. */
  const PdfSuffix := ".pdf"
  const DocxSuffix := ".docx"
  const LogSuffix := ".log.txt"

  /** A character of a plain file name: not a directory separator, and
      not a colon. The colon is excluded because the scripts target
      Windows, where it marks a drive (`C:doc.tex`) and cannot occur in a
      file name otherwise; on a POSIX system it is an ordinary character,
      and names holding one are left out of the model there too. */
  predicate IsNameChar(c: char) {
    c != '/' && c != '\\' && c != ':'
  }

  /** A plain file name (no directory or drive part) with a non-empty stem
      and the `.tex` suffix. For such names the path library's suffix
      replacement is plain replacement of the last four characters. */
  predicate IsTexName(f: string) {
    && |f| > |TexSuffix|
    && f[|f| - |TexSuffix|..] == TexSuffix
    && forall i :: 0 <= i < |f| ==> IsNameChar(f[i])
  }

  /** The name without its `.tex` suffix. */
  function Stem(f: string): (s: string)
    requires IsTexName(f)
    ensures |s| > 0
    ensures s + TexSuffix == f
  {
    f[..|f| - |TexSuffix|]
  }

  /** The sibling file name with `suffix` in place of `.tex`. */
  function WithSuffix(f: string, suffix: string): (g: string)
    requires IsTexName(f)
    ensures |g| == |f| - |TexSuffix| + |suffix|
    ensures g[..|f| - |TexSuffix|] == f[..|f| - |TexSuffix|]
    ensures g[|f| - |TexSuffix|..] == suffix
  {
    Stem(f) + suffix
  }

  /** Distinct source names have distinct stems, so the derived names of two
      different documents never collide. */
  lemma StemInjective(f: string, g: string)
    requires IsTexName(f) && IsTexName(g)
    ensures Stem(f) == Stem(g) ==> f == g
  {
  }

  /** Putting `.tex` back undoes the suffix replacement. */
  lemma WithSuffixRoundTrip(f: string)
    requires IsTexName(f)
    ensures WithSuffix(f, TexSuffix) == f
  {
  }
}

=== FILE: process.dfy ===
/** The subprocess boundary of both converter scripts. Spawning a process,
    waiting on it and decoding its output are not modelled: a run is given as
    the way it ended, and `RunCommand` folds that into the `(ok, out, err)`
    triple every caller sees. */
module Process {
  import opened Wrappers

  type Bytes = seq<bv8>

  /** How one subprocess call ended. The captured streams are already
      decoded text. */
  datatype ProcessOutcome =
    | Exited(code: int, stdout: string, stderr: string)
    | TimedOut
    | Raised(message: string)

  /** The normalised triple returned to callers. */
  datatype RunResult = RunResult(ok: bool, out: string, err: string)

  /** What one invocation of an external tool amounts to: how the process
      ended, and the bytes of the output file the tool is expected to write
      (`None` when that file does not exist afterwards). */
  datatype ToolRun = ToolRun(outcome: ProcessOutcome, produced: Option<Bytes>)

  /** An external tool as an oracle: given the command vector and the source
      text written into the scratch directory, it tells how the run went. */
  type Tool = (seq<string>, string) -> ToolRun

  const TimeoutNotice := "\U{274C} Timeout expired."
  const ExceptionPrefix := "\U{274C} Exception: "

  /** Maps how a process ended to the triple the callers consume. */
  function RunCommand(o: ProcessOutcome): (r: RunResult)
    ensures r.ok <==> o.Exited? && o.code == 0
    ensures o.Exited? ==> r.out == o.stdout && r.err == o.stderr
    ensures o.TimedOut? ==> r == RunResult(false, "", TimeoutNotice)
    ensures o.Raised? ==> r == RunResult(false, "", ExceptionPrefix + o.message)
  {
    match o
    case Exited(code, out, err) => RunResult(code == 0, out, err)
    case TimedOut => RunResult(false, "", TimeoutNotice)
    case Raised(msg) => RunResult(false, "", ExceptionPrefix + msg)
  }

  /** A successful triple determines the run completely: it came from a
      process that exited with status 0 and printed exactly those streams. */
  lemma OkDeterminesOutcome(o: ProcessOutcome)
    ensures RunCommand(o).ok ==> o == Exited(0, RunCommand(o).out, RunCommand(o).err)
  {
  }

  /** A run that did not end by itself never raises to the caller: it reports
      failure with empty stdout and a stderr that starts with the cross mark. */
  lemma AbnormalEndIsReported(o: ProcessOutcome)
    requires !o.Exited?
    ensures var r := RunCommand(o);
      && !r.ok && r.out == ""
      && |r.err| > 2 && r.err[0] == '\U{274C}' && r.err[1] == ' '
  {
  }
}

=== FILE: texpro.dfy ===
/** The configurable converter (texpro.py): tool paths and pdflatex flags
    come from a configuration record, and a failed PDF phase yields a
    one-line error summary taken from the compiler's output. */
module TexPro {
  import opened Wrappers
  import opened Process
  import opened Text
  import opened Paths
  import opened LogScan
  import opened Toolchain
  import opened Archive

  /** Paths of the two tools and the pdflatex flag string. The interface
      edits these between runs; a compilation reads one snapshot. */
  datatype Config = Config(miktexPath: string, pandocPath: string, pdflatexFlags: string)

  /** The settings a fresh session starts with. */
  const DefaultConfig := Config(
    "C:\\Program Files\\MiKTeX\\miktex\\bin\\x64\\pdflatex.exe",
    "C:\\Program Files\\Pandoc\\pandoc.exe",
    "-interaction=nonstopmode -halt-on-error")

  /** The four-field result of one compilation. */
  datatype Results = Results(pdf: Option<Bytes>, docx: Option<Bytes>, log: string, errorSummary: string)
  {
    /** The fields the batch packager reads. */
    function AsOutputs(): Outputs {
      Outputs(pdf, docx, log)
    }
  }

  const NoTexFilesMessage := "No .tex files found in folder."

  /** The typesetting command: the compiler, the words of the flag string,
      then the source file name. */
  function PdfCommand(cfg: Config, filename: string): (cmd: seq<string>)
    requires IsTexName(filename)
    ensures |cmd| >= 2 && cmd[0] == cfg.miktexPath && cmd[|cmd| - 1] == filename
    ensures forall i :: 1 <= i < |cmd| - 1 ==> IsWord(cmd[i])
    ensures Concat(cmd[1..|cmd| - 1]) == NonSpace(cfg.pdflatexFlags)
  {
    [cfg.miktexPath] + SplitWhitespace(cfg.pdflatexFlags) + [filename]
  }

  /** Flags written one word apart reach the compiler as exactly those
      words, between the compiler path and the file name. */
  lemma PdfCommandPassesFlags(cfg: Config, filename: string, flags: seq<string>)
    requires IsTexName(filename)
    requires forall i :: 0 <= i < |flags| ==> IsWord(flags[i])
    requires cfg.pdflatexFlags == JoinSpace(flags)
    ensures PdfCommand(cfg, filename) == [cfg.miktexPath] + flags + [filename]
  {
    SplitJoinRoundTrip(flags);
  }

  /** However the flags are spaced (tabs, line feeds, runs of blanks, or
      whitespace before the first and after the last), each reaches the
      compiler as one argument, in order. */
  lemma PdfCommandSpacedFlags(cfg: Config, filename: string, pad: string,
                              flags: seq<string>, seps: seq<string>, tail: string)
    requires IsTexName(filename)
    requires |flags| == |seps| + 1
    requires forall i :: 0 <= i < |flags| ==> IsWord(flags[i])
    requires forall i :: 0 <= i < |seps| ==> IsSeparator(seps[i])
    requires IsBlank(pad) && IsBlank(tail)
    requires cfg.pdflatexFlags == pad + Interleave(flags, seps) + tail
    ensures PdfCommand(cfg, filename) == [cfg.miktexPath] + flags + [filename]
  {
    SplitSeparated(pad, flags, seps, tail);
  }

  /** An empty or all-whitespace flag string adds no argument, and it is
      the only kind that adds none. */
  lemma BlankFlagsAddNothing(cfg: Config, filename: string)
    requires IsTexName(filename)
    ensures PdfCommand(cfg, filename) == [cfg.miktexPath, filename] <==> IsBlank(cfg.pdflatexFlags)
  {
    SplitEmptyIffBlank(cfg.pdflatexFlags);
    var cmd := PdfCommand(cfg, filename);
    if cmd == [cfg.miktexPath, filename] {
      assert SplitWhitespace(cfg.pdflatexFlags) == cmd[1..|cmd| - 1];
    }
  }

  /** The two flags of the default configuration, in order. */
  const DefaultFlags: seq<string> := ["-interaction=nonstopmode", "-halt-on-error"]

  lemma DefaultFlagsAreWords()
    ensures forall i :: 0 <= i < |DefaultFlags| ==> IsWord(DefaultFlags[i])
  {
    assert IsWord(DefaultFlags[0]);
    assert IsWord(DefaultFlags[1]);
  }

  lemma DefaultFlagsJoined()
    ensures JoinSpace(DefaultFlags) == DefaultConfig.pdflatexFlags
  {
    assert JoinSpace(DefaultFlags) == DefaultFlags[0] + " " + JoinSpace(DefaultFlags[1..]);
  }

  /** The default flag string reaches the compiler as the two flags the
      other converter hard-codes. */
  lemma DefaultFlagWords()
    ensures SplitWhitespace(DefaultConfig.pdflatexFlags) == DefaultFlags
  {
    DefaultFlagsAreWords();
    DefaultFlagsJoined();
    SplitJoinRoundTrip(DefaultFlags);
  }

  /** The PDF phase as an update of the results: append the pdflatex log
      block, then either keep the PDF or record the error summary. The DOCX
      field is left alone. */
  function PdfStep(r: Results, cfg: Config, code: string, filename: string, pdflatex: Tool): (r': Results)
    requires IsTexName(filename)
    ensures var run := pdflatex(PdfCommand(cfg, filename), code);
      var res := RunCommand(run.outcome);
      && r'.docx == r.docx
      && r'.log == r.log + LogBlock("pdflatex", res.out, res.err)
      && r'.pdf == (if Produced(run) then run.produced else r.pdf)
      && r'.errorSummary == (if Produced(run) then r.errorSummary else ExtractLatexError(res.out + res.err))
  {
    var ph := RunPhase(pdflatex, "pdflatex", PdfCommand(cfg, filename), code);
    var logged := r.(log := r.log + ph.block);
    if ph.output.Some? then logged.(pdf := ph.output)
    else logged.(errorSummary := ExtractLatexError(ph.diagnostics))
  }

  /** The DOCX phase as an update of the results: append the pandoc log
      block and keep the DOCX if produced. The PDF and the error summary
      are left alone. */
  function DocxStep(r: Results, cfg: Config, code: string, filename: string, pandoc: Tool): (r': Results)
    requires IsTexName(filename)
    ensures var run := pandoc(DocxCommand(cfg.pandocPath, filename), code);
      var res := RunCommand(run.outcome);
      && r'.pdf == r.pdf
      && r'.errorSummary == r.errorSummary
      && r'.log == r.log + LogBlock("pandoc", res.out, res.err)
      && r'.docx == (if Produced(run) then run.produced else r.docx)
  {
    var ph := RunPhase(pandoc, "pandoc", DocxCommand(cfg.pandocPath, filename), code);
    var logged := r.(log := r.log + ph.block);
    if ph.output.Some? then logged.(docx := ph.output) else logged
  }

  /** Compiles `code`, saved as `filename`, with the requested phases. The
      PDF phase runs first and, when the PDF is not picked up, records the
      error summary; the DOCX phase runs whether or not the PDF phase
      failed. */
  function CompileLatex(cfg: Config, code: string, filename: string, makePdf: bool, makeDocx: bool,
                        pdflatex: Tool, pandoc: Tool): (r: Results)
    requires IsTexName(filename)
    ensures var run := pdflatex(PdfCommand(cfg, filename), code);
      r.pdf == if makePdf && Produced(run) then run.produced else None
    ensures var run := pandoc(DocxCommand(cfg.pandocPath, filename), code);
      r.docx == if makeDocx && Produced(run) then run.produced else None
  {
    var start := Results(None, None, "", "");
    var afterPdf := if makePdf then PdfStep(start, cfg, code, filename, pdflatex) else start;
    if makeDocx then DocxStep(afterPdf, cfg, code, filename, pandoc) else afterPdf
  }

  /** The text of the pdflatex log block of a compilation. */
  function PdfBlock(cfg: Config, code: string, filename: string, pdflatex: Tool): string
    requires IsTexName(filename)
  {
    var res := RunCommand(pdflatex(PdfCommand(cfg, filename), code).outcome);
    LogBlock("pdflatex", res.out, res.err)
  }

  /** The text of the pandoc log block of a compilation. */
  function DocxBlock(cfg: Config, code: string, filename: string, pandoc: Tool): string
    requires IsTexName(filename)
  {
    var res := RunCommand(pandoc(DocxCommand(cfg.pandocPath, filename), code).outcome);
    LogBlock("pandoc", res.out, res.err)
  }

  /** The error summary is set exactly when a requested PDF is missing, and
      it is then the verdict on the compiler's combined output. */
  lemma CompileSummary(cfg: Config, code: string, filename: string, makePdf: bool, makeDocx: bool,
                       pdflatex: Tool, pandoc: Tool)
    requires IsTexName(filename)
    ensures var r := CompileLatex(cfg, code, filename, makePdf, makeDocx, pdflatex, pandoc);
      var res := RunCommand(pdflatex(PdfCommand(cfg, filename), code).outcome);
      r.errorSummary == if makePdf && r.pdf.None? then ExtractLatexError(res.out + res.err) else ""
  {
  }

  /** The log holds the pdflatex block when the PDF was requested, then the
      pandoc block when the DOCX was requested, and nothing else. */
  lemma CompileLog(cfg: Config, code: string, filename: string, makePdf: bool, makeDocx: bool,
                   pdflatex: Tool, pandoc: Tool)
    requires IsTexName(filename)
    ensures CompileLatex(cfg, code, filename, makePdf, makeDocx, pdflatex, pandoc).log
         == (if makePdf then PdfBlock(cfg, code, filename, pdflatex) else "")
          + (if makeDocx then DocxBlock(cfg, code, filename, pandoc) else "")
  {
    var pdfPart := if makePdf then PdfBlock(cfg, code, filename, pdflatex) else "";
    assert "" + pdfPart == pdfPart;
    assert pdfPart + "" == pdfPart;
  }

  /** With no phase requested nothing runs: no outputs, empty log, no
      summary. */
  lemma NothingRequested(cfg: Config, code: string, filename: string, pdflatex: Tool, pandoc: Tool)
    requires IsTexName(filename)
    ensures CompileLatex(cfg, code, filename, false, false, pdflatex, pandoc) == Results(None, None, "", "")
  {
  }

  /** The phases are independent: a compilation with both phases is the
      PDF-only compilation and the DOCX-only compilation side by side, with
      the PDF log block first. */
  lemma PhasesIndependent(cfg: Config, code: string, filename: string, makePdf: bool, makeDocx: bool,
                          pdflatex: Tool, pandoc: Tool)
    requires IsTexName(filename)
    ensures var both := CompileLatex(cfg, code, filename, makePdf, makeDocx, pdflatex, pandoc);
      var pdfOnly := CompileLatex(cfg, code, filename, makePdf, false, pdflatex, pandoc);
      var docxOnly := CompileLatex(cfg, code, filename, false, makeDocx, pdflatex, pandoc);
      both == Results(pdfOnly.pdf, docxOnly.docx, pdfOnly.log + docxOnly.log, pdfOnly.errorSummary)
  {
    CompileLog(cfg, code, filename, makePdf, makeDocx, pdflatex, pandoc);
    CompileLog(cfg, code, filename, makePdf, false, pdflatex, pandoc);
    CompileLog(cfg, code, filename, false, makeDocx, pdflatex, pandoc);
    CompileSummary(cfg, code, filename, makePdf, makeDocx, pdflatex, pandoc);
    CompileSummary(cfg, code, filename, makePdf, false, pdflatex, pandoc);
    var pdfPart := if makePdf then PdfBlock(cfg, code, filename, pdflatex) else "";
    var docxPart := if makeDocx then DocxBlock(cfg, code, filename, pandoc) else "";
    assert pdfPart + "" == pdfPart;
    assert "" + docxPart == docxPart;
  }

  /** A requested PDF is either produced, with no summary, or missing, with
      a non-empty summary; this includes a run that exited with status 0
      but left no PDF behind. */
  lemma MissingPdfIsExplained(cfg: Config, code: string, filename: string, makePdf: bool, makeDocx: bool,
                              pdflatex: Tool, pandoc: Tool)
    requires IsTexName(filename)
    ensures var r := CompileLatex(cfg, code, filename, makePdf, makeDocx, pdflatex, pandoc);
      makePdf ==> (r.pdf.None? <==> r.errorSummary != "")
  {
    var r := CompileLatex(cfg, code, filename, makePdf, makeDocx, pdflatex, pandoc);
    CompileSummary(cfg, code, filename, makePdf, makeDocx, pdflatex, pandoc);
    if makePdf && r.pdf.None? {
      var res := RunCommand(pdflatex(PdfCommand(cfg, filename), code).outcome);
      var s := ExtractLatexError(res.out + res.err);
      assert s == NoErrorMessage || s[..|ErrorPrefix|] == ErrorPrefix;
    }
  }

  /** The (base name, outputs) pairs the batch packs, one per document. */
  function Compiled(cfg: Config, docs: seq<SourceDoc>, makePdf: bool, makeDocx: bool,
                    pdflatex: Tool, pandoc: Tool): seq<Item>
    requires forall i :: 0 <= i < |docs| ==> IsTexName(docs[i].name)
  {
    seq(|docs|, i requires 0 <= i < |docs| =>
      (Stem(docs[i].name),
       CompileLatex(cfg, docs[i].text, docs[i].name, makePdf, makeDocx, pdflatex, pandoc).AsOutputs()))
  }

  /** Converts every document and packs the results; an empty batch is an
      error and produces no archive. */
  method ConvertDirectory(cfg: Config, docs: seq<SourceDoc>, makePdf: bool, makeDocx: bool,
                          pdflatex: Tool, pandoc: Tool)
    returns (r: Result<seq<Entry>, string>)
    requires forall i :: 0 <= i < |docs| ==> IsTexName(docs[i].name)
    ensures r.Failure? <==> docs == []
    ensures r.Failure? ==> r.error == NoTexFilesMessage
    ensures r.Success? ==> r.value == Pack(Compiled(cfg, docs, makePdf, makeDocx, pdflatex, pandoc))
  {
    if docs == [] {
      return Failure(NoTexFilesMessage);
    }
    var zout := WriteEntries(Compiled(cfg, docs, makePdf, makeDocx, pdflatex, pandoc));
    return Success(zout);
  }

  /** Each document of the batch leaves exactly one log entry, in input
      order, named after the document and holding its compilation log. */
  lemma BatchLogs(cfg: Config, docs: seq<SourceDoc>, makePdf: bool, makeDocx: bool,
                  pdflatex: Tool, pandoc: Tool)
    requires forall i :: 0 <= i < |docs| ==> IsTexName(docs[i].name)
    ensures var logs := Named(Pack(Compiled(cfg, docs, makePdf, makeDocx, pdflatex, pandoc)), LogSuffix);
      && |logs| == |docs|
      && forall i :: 0 <= i < |docs| ==> logs[i] == Entry(Stem(docs[i].name) + LogSuffix,
           Chars(CompileLatex(cfg, docs[i].text, docs[i].name, makePdf, makeDocx, pdflatex, pandoc).log))
  {
    LogEntryPerItem(Compiled(cfg, docs, makePdf, makeDocx, pdflatex, pandoc));
  }

  /** Documents with distinct file names never share an archive entry name. */
  lemma BatchNamesDistinct(cfg: Config, docs: seq<SourceDoc>, makePdf: bool, makeDocx: bool,
                           pdflatex: Tool, pandoc: Tool)
    requires forall i :: 0 <= i < |docs| ==> IsTexName(docs[i].name)
    requires forall i, j :: 0 <= i < j < |docs| ==> docs[i].name != docs[j].name
    ensures var zout := Pack(Compiled(cfg, docs, makePdf, makeDocx, pdflatex, pandoc));
      forall a, b :: 0 <= a < b < |zout| ==> zout[a].name != zout[b].name
  {
    var items := Compiled(cfg, docs, makePdf, makeDocx, pdflatex, pandoc);
    forall i, j | 0 <= i < j < |items|
      ensures items[i].0 != items[j].0
    {
      if items[i].0 == items[j].0 {
        StemInjective(docs[i].name, docs[j].name);
      }
    }
    PackNamesDistinct(items);
  }
}

=== FILE: text.dfy ===
/** Whitespace splitting as done by the argument-less string `split()` of
    the configuration's flag string: runs of whitespace separate words, and
    leading or trailing whitespace yields no empty word. */
module Text {

  /** The characters the string library counts as whitespace. */
  predicate IsSpace(c: char) {
    || ('\U{9}' <= c <= '\U{D}')
    || ('\U{1C}' <= c <= '\U{20}')
    || c == '\U{85}' || c == '\U{A0}' || c == '\U{1680}'
    || ('\U{2000}' <= c <= '\U{200A}')
    || c == '\U{2028}' || c == '\U{2029}' || c == '\U{202F}'
    || c == '\U{205F}' || c == '\U{3000}'
  }

  predicate IsBlank(s: string) {
    forall i :: 0 <= i < |s| ==> IsSpace(s[i])
  }

  /** Free of whitespace (possibly empty). */
  predicate NoSpace(s: string) {
    forall i :: 0 <= i < |s| ==> !IsSpace(s[i])
  }

  /** A word: non-empty and free of whitespace. */
  predicate IsWord(w: string) {
    |w| > 0 && NoSpace(w)
  }

  /** The scan behind `SplitWhitespace`: `word` holds the characters of the
      word in progress, and position `i` is next. */
  function SplitFrom(s: string, i: nat, word: string): seq<string>
    requires i <= |s|
    decreases |s| - i
  {
    if i == |s| then
      (if word == [] then [] else [word])
    else if IsSpace(s[i]) then
      (if word == [] then [] else [word]) + SplitFrom(s, i + 1, [])
    else
      SplitFrom(s, i + 1, word + [s[i]])
  }

  /** The words of `s`, in order. Every piece is a word (non-empty, no
      whitespace), and splitting loses only whitespace: the words,
      concatenated, are the non-whitespace characters of `s` in their
      original order. */
  function SplitWhitespace(s: string): (ws: seq<string>)
    ensures forall k :: 0 <= k < |ws| ==> IsWord(ws[k])
    ensures Concat(ws) == NonSpace(s)
  {
    SplitFromWords(s, 0, []);
    SplitFromKeepsNonSpace(s, 0, []);
    assert s[0..] == s;
    SplitFrom(s, 0, [])
  }

  /** Words joined by single spaces: the canonical flag string for `ws`. */
  function JoinSpace(ws: seq<string>): string {
    if ws == [] then ""
    else if |ws| == 1 then ws[0]
    else ws[0] + " " + JoinSpace(ws[1..])
  }

  /** The characters of `s` that are not whitespace, in order. */
  function NonSpace(s: string): string {
    if s == [] then ""
    else if IsSpace(s[0]) then NonSpace(s[1..])
    else [s[0]] + NonSpace(s[1..])
  }

  function Concat(ws: seq<string>): string {
    if ws == [] then "" else ws[0] + Concat(ws[1..])
  }

  lemma AllWordsCons(w: string, ws: seq<string>)
    requires IsWord(w)
    requires forall i :: 0 <= i < |ws| ==> IsWord(ws[i])
    ensures forall i :: 0 <= i < |[w] + ws| ==> IsWord(([w] + ws)[i])
  {
  }

  lemma {:induction false} SplitFromWords(s: string, i: nat, word: string)
    requires i <= |s| && NoSpace(word)
    ensures forall k :: 0 <= k < |SplitFrom(s, i, word)| ==> IsWord(SplitFrom(s, i, word)[k])
    decreases |s| - i
  {
    if i == |s| {
    } else if IsSpace(s[i]) {
      SplitFromWords(s, i + 1, []);
      if word != [] {
        AllWordsCons(word, SplitFrom(s, i + 1, []));
      }
    } else {
      assert NoSpace(word + [s[i]]) by {
        assert forall k :: 0 <= k < |word| ==> (word + [s[i]])[k] == word[k];
      }
      SplitFromWords(s, i + 1, word + [s[i]]);
    }
  }

  lemma {:induction false} SplitFromEmpty(s: string, i: nat, word: string)
    requires i <= |s|
    ensures SplitFrom(s, i, word) == [] <==> word == [] && IsBlank(s[i..])
    decreases |s| - i
  {
    if i < |s| {
      SplitFromEmpty(s, i + 1, if IsSpace(s[i]) then [] else word + [s[i]]);
      assert s[i..][0] == s[i];
      assert s[i..][1..] == s[i + 1..];
    }
  }

  /** A flag string yields no words exactly when it is empty or all
      whitespace. */
  lemma SplitEmptyIffBlank(s: string)
    ensures SplitWhitespace(s) == [] <==> IsBlank(s)
  {
    SplitFromEmpty(s, 0, []);
    assert s[0..] == s;
  }

  lemma ConcatCons(w: string, ws: seq<string>)
    ensures Concat([w] + ws) == w + Concat(ws)
  {
    assert ([w] + ws)[1..] == ws;
  }

  lemma NonSpaceStep(s: string, i: nat)
    requires i < |s|
    ensures NonSpace(s[i..]) == (if IsSpace(s[i]) then "" else [s[i]]) + NonSpace(s[i + 1..])
  {
    assert s[i..][0] == s[i];
    assert s[i..][1..] == s[i + 1..];
  }

  lemma {:induction false} SplitFromKeepsNonSpace(s: string, i: nat, word: string)
    requires i <= |s|
    ensures Concat(SplitFrom(s, i, word)) == word + NonSpace(s[i..])
    decreases |s| - i
  {
    if i == |s| {
      assert s[i..] == [];
      if word != [] {
        ConcatCons(word, []);
      }
    } else {
      NonSpaceStep(s, i);
      if IsSpace(s[i]) {
        SplitFromKeepsNonSpace(s, i + 1, []);
        assert [] + NonSpace(s[i + 1..]) == NonSpace(s[i + 1..]);
        if word != [] {
          ConcatCons(word, SplitFrom(s, i + 1, []));
        } else {
          assert [] + SplitFrom(s, i + 1, []) == SplitFrom(s, i + 1, []);
        }
      } else {
        SplitFromKeepsNonSpace(s, i + 1, word + [s[i]]);
        assert word + [s[i]] + NonSpace(s[i + 1..]) == word + ([s[i]] + NonSpace(s[i + 1..]));
      }
    }
  }

  /** A run of non-space characters is absorbed into the word in progress. */
  lemma {:induction false} SplitFromAbsorbs(s: string, i: nat, word: string, n: nat)
    requires i + n <= |s|
    requires NoSpace(s[i..i + n])
    ensures SplitFrom(s, i, word) == SplitFrom(s, i + n, word + s[i..i + n])
    decreases n
  {
    if n > 0 {
      assert s[i..i + n][0] == s[i];
      assert s[i + 1..i + n] == s[i..i + n][1..];
      SplitFromAbsorbs(s, i + 1, word + [s[i]], n - 1);
      assert word + [s[i]] + s[i + 1..i + n] == word + s[i..i + n];
    } else {
      assert word + s[i..i] == word;
    }
  }

  /** The scan of `p + q` past `p` is the scan of `q`. */
  lemma {:induction false} SplitFromShift(p: string, q: string, i: nat, word: string)
    requires i <= |q|
    ensures SplitFrom(p + q, |p| + i, word) == SplitFrom(q, i, word)
    decreases |q| - i
  {
    if i < |q| {
      assert (p + q)[|p| + i] == q[i];
      SplitFromShift(p, q, i + 1, if IsSpace(q[i]) then [] else word + [q[i]]);
    }
  }

  lemma SplitOfWord(w: string)
    requires IsWord(w)
    ensures SplitWhitespace(w) == [w]
  {
    assert w[0..|w|] == w;
    SplitFromAbsorbs(w, 0, [], |w|);
    assert [] + w == w;
  }

  lemma SplitWordSpaceRest(w: string, rest: string)
    requires IsWord(w)
    ensures SplitWhitespace(w + ([' '] + rest)) == [w] + SplitWhitespace(rest)
  {
    var s := w + ([' '] + rest);
    assert s[0..|w|] == w;
    SplitFromAbsorbs(s, 0, [], |w|);
    assert [] + w == w;
    assert s[|w|] == ' ';
    assert SplitFrom(s, |w|, w) == [w] + SplitFrom(s, |w| + 1, []);
    assert s == (w + [' ']) + rest;
    SplitFromShift(w + [' '], rest, 0, []);
  }

  lemma JoinSpaceUnfold(ws: seq<string>)
    requires |ws| >= 2
    ensures JoinSpace(ws) == ws[0] + ([' '] + JoinSpace(ws[1..]))
  {
  }

  /** Splitting the single-space join of a list of words gives the list
      back: the words of a flag string are exactly the flags. */
  lemma {:induction false} SplitJoinRoundTrip(ws: seq<string>)
    requires forall i :: 0 <= i < |ws| ==> IsWord(ws[i])
    ensures SplitWhitespace(JoinSpace(ws)) == ws
    decreases |ws|
  {
    if ws == [] {
    } else if |ws| == 1 {
      SplitOfWord(ws[0]);
      assert [ws[0]] == ws;
    } else {
      SplitJoinRoundTrip(ws[1..]);
      JoinSpaceUnfold(ws);
      SplitWordSpaceRest(ws[0], JoinSpace(ws[1..]));
      assert [ws[0]] + ws[1..] == ws;
    }
  }

  /** A separator: a non-empty run of whitespace. */
  predicate IsSeparator(sep: string) {
    |sep| > 0 && IsBlank(sep)
  }

  /** Words with separators between them: `ws[0] + seps[0] + ws[1] + ...`. */
  function Interleave(ws: seq<string>, seps: seq<string>): string
    requires |ws| == |seps| + 1
    decreases |seps|
  {
    if |seps| == 0 then ws[0]
    else ws[0] + seps[0] + Interleave(ws[1..], seps[1..])
  }

  /** Between words, a run of whitespace is skipped without producing a word. */
  lemma {:induction false} SplitFromSkipBlank(s: string, i: nat, n: nat)
    requires i + n <= |s|
    requires IsBlank(s[i..i + n])
    ensures SplitFrom(s, i, []) == SplitFrom(s, i + n, [])
    decreases n
  {
    if n > 0 {
      assert s[i..i + n][0] == s[i];
      assert s[i + 1..i + n] == s[i..i + n][1..];
      SplitFromSkipBlank(s, i + 1, n - 1);
      assert [] + SplitFrom(s, i + 1, []) == SplitFrom(s, i + 1, []);
    }
  }

  /** Leading whitespace yields nothing. */
  lemma SplitBlankPrefix(pad: string, rest: string)
    requires IsBlank(pad)
    ensures SplitWhitespace(pad + rest) == SplitWhitespace(rest)
  {
    var s := pad + rest;
    assert s[0..|pad|] == pad;
    SplitFromSkipBlank(s, 0, |pad|);
    SplitFromShift(pad, rest, 0, []);
  }

  /** A word ended by any separator is split off on its own. */
  lemma SplitWordThenBlank(w: string, sep: string, rest: string)
    requires IsWord(w) && IsSeparator(sep)
    ensures SplitWhitespace(w + sep + rest) == [w] + SplitWhitespace(rest)
  {
    var s := w + (sep + rest);
    assert w + sep + rest == s;
    assert s[0..|w|] == w;
    SplitFromAbsorbs(s, 0, [], |w|);
    assert [] + w == w;
    assert s[|w|] == sep[0];
    assert SplitFrom(s, |w|, []) == [] + SplitFrom(s, |w| + 1, []);
    assert SplitFrom(s, |w|, w) == [w] + SplitFrom(s, |w|, []);
    SplitFromShift(w, sep + rest, 0, []);
    SplitBlankPrefix(sep, rest);
  }

  /** A word followed only by whitespace is the last word. */
  lemma SplitWordBlankTail(w: string, tail: string)
    requires IsWord(w) && IsBlank(tail)
    ensures SplitWhitespace(w + tail) == [w]
  {
    if tail == [] {
      assert w + tail == w;
      SplitOfWord(w);
    } else {
      SplitWordThenBlank(w, tail, []);
      assert w + tail + [] == w + tail;
    }
  }

  lemma {:induction false} SplitInterleave(ws: seq<string>, seps: seq<string>, tail: string)
    requires |ws| == |seps| + 1
    requires forall i :: 0 <= i < |ws| ==> IsWord(ws[i])
    requires forall i :: 0 <= i < |seps| ==> IsSeparator(seps[i])
    requires IsBlank(tail)
    ensures SplitWhitespace(Interleave(ws, seps) + tail) == ws
    decreases |seps|
  {
    if |seps| == 0 {
      SplitWordBlankTail(ws[0], tail);
      assert [ws[0]] == ws;
    } else {
      var rest := Interleave(ws[1..], seps[1..]) + tail;
      SplitInterleave(ws[1..], seps[1..], tail);
      assert Interleave(ws, seps) + tail == ws[0] + seps[0] + rest;
      SplitWordThenBlank(ws[0], seps[0], rest);
      assert [ws[0]] + ws[1..] == ws;
    }
  }

  /** The split recovers the words of a string however they are laid out:
      any leading whitespace, any non-empty runs of whitespace between the
      words, any trailing whitespace. Word boundaries fall exactly at the
      separators. */
  lemma SplitSeparated(pad: string, ws: seq<string>, seps: seq<string>, tail: string)
    requires |ws| == |seps| + 1
    requires forall i :: 0 <= i < |ws| ==> IsWord(ws[i])
    requires forall i :: 0 <= i < |seps| ==> IsSeparator(seps[i])
    requires IsBlank(pad) && IsBlank(tail)
    ensures SplitWhitespace(pad + Interleave(ws, seps) + tail) == ws
  {
    var body := Interleave(ws, seps) + tail;
    assert pad + Interleave(ws, seps) + tail == pad + body;
    SplitBlankPrefix(pad, body);
    SplitInterleave(ws, seps, tail);
  }
}

=== FILE: toolchain.dfy ===
/** What both converter scripts share when they drive the external tools:
    the documents they are given, the outputs they collect, the pandoc
    command line, and the step "run a tool, log it, pick up its file". */
module Toolchain {
  import opened Wrappers
  import opened Process
  import opened Paths

  /** A source document: its file name and its text. */
  datatype SourceDoc = SourceDoc(name: string, text: string)

  /** The PDF bytes, DOCX bytes and accumulated log of one compilation. */
  datatype Outputs = Outputs(pdf: Option<Bytes>, docx: Option<Bytes>, log: string)

  /** The labelled block a tool's streams contribute to the log: a header
      line naming the tool, then standard output and standard error, each
      followed by a line feed. Both streams can be read back at fixed
      offsets, so the block keeps them whole and in order. */
  function LogBlock(toolName: string, out: string, err: string): (b: string)
    ensures var header := "\n--- " + toolName + " log ---\n";
      var h := |header|;
      && |b| == h + |out| + |err| + 2
      && b[..h] == header
      && b[h..h + |out|] == out
      && b[h + |out|] == '\n'
      && b[h + |out| + 1..|b| - 1] == err
      && b[|b| - 1] == '\n'
  {
    "\n--- " + toolName + " log ---\n" + out + "\n" + err + "\n"
  }

  /** The conversion command: `<pandoc> <name>.tex -o <name>.docx`. */
  function DocxCommand(pandocPath: string, filename: string): (cmd: seq<string>)
    requires IsTexName(filename)
    ensures |cmd| == 4 && cmd[0] == pandocPath && cmd[1] == filename && cmd[2] == "-o"
    ensures cmd[3] == Stem(filename) + DocxSuffix
  {
    [pandocPath, filename, "-o", WithSuffix(filename, DocxSuffix)]
  }

  /** What one tool phase contributes: its log block, the output file if it
      is picked up, and the combined streams for error extraction. */
  datatype Phase = Phase(block: string, output: Option<Bytes>, diagnostics: string)

  /** True when the run exited with status 0 and left its output file. */
  predicate Produced(run: ToolRun) {
    run.outcome.Exited? && run.outcome.code == 0 && run.produced.Some?
  }

  /** Runs `tool` on `cmd`, labels its streams `toolName` in the log, and
      picks up the output file only when the run succeeded and the file
      exists. */
  function RunPhase(tool: Tool, toolName: string, cmd: seq<string>, code: string): (ph: Phase)
    ensures var run := tool(cmd, code);
      && (ph.output.Some? <==> Produced(run))
      && (ph.output.Some? ==> ph.output == run.produced)
    ensures var res := RunCommand(tool(cmd, code).outcome);
      ph.block == LogBlock(toolName, res.out, res.err) && ph.diagnostics == res.out + res.err
  {
    var run := tool(cmd, code);
    var res := RunCommand(run.outcome);
    var output := if res.ok && run.produced.Some? then run.produced else None;
    Phase(LogBlock(toolName, res.out, res.err), output, res.out + res.err)
  }
}

=== FILE: upload_naming.dfy ===
/** Output names derived by textual replacement. The upload tab and the
    download buttons name an output by replacing every `.tex` in the file
    name with the output's suffix, where the directory batch uses the stem
    and appends the suffix. The two agree only when `.tex` occurs once, at
    the end. */
module UploadNaming {
  import opened Paths
  import opened Archive

  /** Every non-overlapping occurrence of `pat` replaced by `rep`, scanning
      left to right (the string library's `replace` with no count). The
      first occurrence is replaced and the rest of the string after it is
      processed in the same way; a string without `pat` comes back
      unchanged. So does any string when `rep` is `pat` itself, and a
      replacement of equal length keeps the length. */
  function ReplaceAll(s: string, pat: string, rep: string): (r: string)
    requires |pat| > 0
    ensures !Contains(s, pat) ==> r == s
    ensures forall i: nat {:trigger FirstAt(s, pat, i)} :: FirstAt(s, pat, i) ==>
      r == s[..i] + rep + ReplaceAll(s[i + |pat|..], pat, rep)
    ensures rep == pat ==> r == s
    ensures |rep| == |pat| ==> |r| == |s|
    decreases |s|
  {
    if |s| < |pat| then s
    else if s[..|pat|] == pat then
      assert s[..|pat|] + s[|pat|..] == s;
      assert OccursAt(s, pat, 0) by { assert s[0..|pat|] == s[..|pat|]; }
      assert s[..0] + rep == rep;
      rep + ReplaceAll(s[|pat|..], pat, rep)
    else
      var t := ReplaceAll(s[1..], pat, rep);
      assert [s[0]] + s[1..] == s;
      assert !OccursAt(s, pat, 0) by { assert s[0..|pat|] == s[..|pat|]; }
      assert forall i: nat {:trigger FirstAt(s, pat, i)} :: FirstAt(s, pat, i) ==>
        [s[0]] + t == s[..i] + rep + ReplaceAll(s[i + |pat|..], pat, rep) by {
        forall i: nat | FirstAt(s, pat, i)
          ensures [s[0]] + t == s[..i] + rep + ReplaceAll(s[i + |pat|..], pat, rep)
        {
          FirstAtTail(s, pat, i);
          ConsBeforeFirst(s, pat, rep, i, ReplaceAll(s[i + |pat|..], pat, rep));
        }
      }
      [s[0]] + t
  }

  /** The bookkeeping of one skipped character: the text before the
      tail's first occurrence, behind the skipped character, is the text
      before the first occurrence. */
  lemma ConsBeforeFirst(s: string, pat: string, rep: string, i: nat, u: string)
    requires 0 < i && i + |pat| <= |s|
    ensures s[1..][i - 1 + |pat|..] == s[i + |pat|..]
    ensures [s[0]] + (s[1..][..i - 1] + rep + u) == s[..i] + rep + u
  {
    assert [s[0]] + s[1..][..i - 1] == s[..i];
  }

  /** `pat` occurs at `i` and nowhere before it. */
  predicate FirstAt(s: string, pat: string, i: nat) {
    OccursAt(s, pat, i) && forall j: nat :: j < i ==> !OccursAt(s, pat, j)
  }

  /** A first occurrence past the front is the tail's first occurrence,
      one place earlier. */
  lemma FirstAtTail(s: string, pat: string, i: nat)
    requires 0 < i && FirstAt(s, pat, i)
    ensures FirstAt(s[1..], pat, i - 1)
  {
    assert s[1..][i - 1..i - 1 + |pat|] == s[i..i + |pat|];
    forall j: nat | j < i - 1
      ensures !OccursAt(s[1..], pat, j)
    {
      assert !OccursAt(s, pat, j + 1);
      if j + |pat| <= |s| - 1 {
        assert s[1..][j..j + |pat|] == s[j + 1..j + 1 + |pat|];
      }
    }
  }

  /** `pat` occurs somewhere in `s`. */
  predicate Contains(s: string, pat: string)
    decreases |s|
  {
    |s| >= |pat| && (s[..|pat|] == pat || (|s| > 0 && Contains(s[1..], pat)))
  }

  /** The entry name the upload loop writes, as the code stands. Every
      `.tex` is rewritten: the first one becomes the suffix and the rest of
      the name after it is rewritten the same way, and a name without
      `.tex` is kept. When `.tex` occurs only as the final suffix, that
      suffix is replaced and the rest of the name kept; a suffix as long as
      `.tex` keeps the name's length. */
  function UploadEntryName(name: string, suffix: string): (n: string)
    ensures !Contains(name, TexSuffix) ==> n == name
    ensures forall i: nat {:trigger FirstAt(name, TexSuffix, i)} :: FirstAt(name, TexSuffix, i) ==>
      n == name[..i] + suffix + ReplaceAll(name[i + |TexSuffix|..], TexSuffix, suffix)
    ensures OnlyAtEnd(name, TexSuffix) ==> n == name[..|name| - |TexSuffix|] + suffix
    ensures |suffix| == |TexSuffix| ==> |n| == |name|
  {
    if OnlyAtEnd(name, TexSuffix) then
      ReplaceOnlyAtEnd(name, TexSuffix, suffix);
      ReplaceAll(name, TexSuffix, suffix)
    else
      ReplaceAll(name, TexSuffix, suffix)
  }

  /** The entry name the upload loop evidently means: the stem of the
      upload followed by the suffix, as the directory batch names it. */
  function IntendedEntryName(name: string, suffix: string): (n: string)
    requires IsTexName(name)
    ensures n == Stem(name) + suffix
  {
    WithSuffix(name, suffix)
  }

  /** A mismatch at `k` means no occurrence at the front: the first
      character is kept and the scan moves on. */
  lemma ReplaceSkip(s: string, pat: string, rep: string, k: nat)
    requires k < |pat| <= |s| && s[k] != pat[k]
    ensures ReplaceAll(s, pat, rep) == [s[0]] + ReplaceAll(s[1..], pat, rep)
  {
    assert s[..|pat|][k] != pat[k];
  }

  /** An occurrence at the front is replaced and the scan resumes after it. */
  lemma ReplaceHit(s: string, pat: string, rep: string)
    requires 0 < |pat| <= |s| && s[..|pat|] == pat
    ensures ReplaceAll(s, pat, rep) == rep + ReplaceAll(s[|pat|..], pat, rep)
  {
  }

  /** A prefix that cannot start an occurrence passes through unchanged. */
  lemma {:induction false} ReplaceKeepsPrefix(s: string, t: string, pat: string, rep: string)
    requires |pat| > 0
    requires forall i :: 0 <= i < |s| ==> s[i] != pat[0]
    ensures ReplaceAll(s + t, pat, rep) == s + ReplaceAll(t, pat, rep)
    decreases |s|
  {
    if s == [] {
      assert s + t == t;
    } else if |s + t| < |pat| {
    } else {
      ReplaceSkip(s + t, pat, rep, 0);
      assert (s + t)[1..] == s[1..] + t;
      ReplaceKeepsPrefix(s[1..], t, pat, rep);
    }
  }

  /** A stem free of dots: it cannot hold `.tex` and no occurrence can
      start inside it. */
  predicate DotFree(b: string) {
    forall i :: 0 <= i < |b| ==> b[i] != '.' && IsNameChar(b[i])
  }

  lemma DoubleTexReplaced()
    ensures ReplaceAll(TexSuffix + TexSuffix, TexSuffix, PdfSuffix) == PdfSuffix + PdfSuffix
  {
    var s := TexSuffix + TexSuffix;
    ReplaceHit(s, TexSuffix, PdfSuffix);
    assert s[4..] == TexSuffix;
    ReplaceWhole(TexSuffix, TexSuffix, PdfSuffix);
  }

  lemma PdfTexReplaced()
    ensures ReplaceAll(PdfSuffix + TexSuffix, TexSuffix, PdfSuffix) == PdfSuffix + PdfSuffix
  {
    var s := PdfSuffix + TexSuffix;
    ReplaceSkip(s, TexSuffix, PdfSuffix, 1);
    var p := PdfSuffix[1..];
    assert s[1..] == p + TexSuffix;
    ReplaceKeepsPrefix(p, TexSuffix, TexSuffix, PdfSuffix);
    ReplaceWhole(TexSuffix, TexSuffix, PdfSuffix);
    assert [s[0]] + p == PdfSuffix;
  }

  /** A dot-free stem followed by a tail of plain name characters ending in `.tex` is a
      valid source name. */
  lemma DotFreeTexName(b: string, t: string)
    requires |b| > 0 && DotFree(b)
    requires |t| >= 4 && t[|t| - 4..] == TexSuffix
    requires forall i :: 0 <= i < |t| ==> IsNameChar(t[i])
    ensures IsTexName(b + t)
  {
    var name := b + t;
    assert name[|name| - 4..] == t[|t| - 4..];
    forall i | 0 <= i < |name|
      ensures IsNameChar(name[i])
    {
      if i >= |b| {
        assert name[i] == t[i - |b|];
      }
    }
  }

  /** The replacement behind `InnerTexIsRewritten`. */
  lemma DoubleTexAfterStem(b: string)
    requires DotFree(b)
    ensures ReplaceAll(b + TexSuffix + TexSuffix, TexSuffix, PdfSuffix) == b + PdfSuffix + PdfSuffix
  {
    var t := TexSuffix + TexSuffix;
    assert b + TexSuffix + TexSuffix == b + t;
    ReplaceKeepsPrefix(b, t, TexSuffix, PdfSuffix);
    DoubleTexReplaced();
    assert b + (PdfSuffix + PdfSuffix) == b + PdfSuffix + PdfSuffix;
  }

  /** The replacement behind `PlainUploadName`. */
  lemma PdfTexAfterStem(b: string)
    requires DotFree(b)
    ensures ReplaceAll(b + PdfSuffix + TexSuffix, TexSuffix, PdfSuffix) == b + PdfSuffix + PdfSuffix
  {
    var t := PdfSuffix + TexSuffix;
    assert b + PdfSuffix + TexSuffix == b + t;
    ReplaceKeepsPrefix(b, t, TexSuffix, PdfSuffix);
    PdfTexReplaced();
    assert b + (PdfSuffix + PdfSuffix) == b + PdfSuffix + PdfSuffix;
  }

  /** An inner `.tex` is rewritten too: the PDF of `<b>.tex.tex` is stored
      as `<b>.pdf.pdf`, not `<b>.tex.pdf`. */
  lemma InnerTexIsRewritten(b: string)
    requires |b| > 0 && DotFree(b)
    ensures IsTexName(b + TexSuffix + TexSuffix)
    ensures UploadEntryName(b + TexSuffix + TexSuffix, PdfSuffix) == b + PdfSuffix + PdfSuffix
    ensures IntendedEntryName(b + TexSuffix + TexSuffix, PdfSuffix) == b + TexSuffix + PdfSuffix
  {
    var t := TexSuffix + TexSuffix;
    assert b + TexSuffix + TexSuffix == b + t;
    DotFreeTexName(b, t);
    DoubleTexAfterStem(b);
    assert Stem(b + t) + TexSuffix == (b + TexSuffix) + TexSuffix;
  }

  /** `<b>.pdf.tex` holds `.tex` only at its end, so its PDF goes to
      `<b>.pdf.pdf` as intended. */
  lemma PlainUploadName(b: string)
    requires |b| > 0 && DotFree(b)
    ensures IsTexName(b + PdfSuffix + TexSuffix)
    ensures UploadEntryName(b + PdfSuffix + TexSuffix, PdfSuffix) == b + PdfSuffix + PdfSuffix
  {
    var t := PdfSuffix + TexSuffix;
    assert b + PdfSuffix + TexSuffix == b + t;
    DotFreeTexName(b, t);
    PdfTexAfterStem(b);
  }

  /** Two different uploads can be written under one name: for any dot-free
      stem `b`, both `<b>.tex.tex` and `<b>.pdf.tex` put their PDF at
      `<b>.pdf.pdf`, so the archive holds two entries of that name. */
  lemma UploadNamesCollide(b: string)
    requires |b| > 0 && DotFree(b)
    ensures IsTexName(b + TexSuffix + TexSuffix) && IsTexName(b + PdfSuffix + TexSuffix)
    ensures b + TexSuffix + TexSuffix != b + PdfSuffix + TexSuffix
    ensures UploadEntryName(b + TexSuffix + TexSuffix, PdfSuffix)
         == UploadEntryName(b + PdfSuffix + TexSuffix, PdfSuffix)
  {
    InnerTexIsRewritten(b);
    PlainUploadName(b);
    assert (b + TexSuffix + TexSuffix)[|b| + 1] != (b + PdfSuffix + TexSuffix)[|b| + 1];
  }

  /** The intended names never collide: distinct uploads get distinct
      entry names for each kind of output. */
  lemma IntendedNamesDistinct(f: string, g: string, suffix: string)
    requires IsTexName(f) && IsTexName(g) && f != g
    ensures IntendedEntryName(f, suffix) != IntendedEntryName(g, suffix)
  {
    StemInjective(f, g);
  }

  /** `pat` occurs in `s` at position `i`. */
  predicate OccursAt(s: string, pat: string, i: nat) {
    i + |pat| <= |s| && s[i..i + |pat|] == pat
  }

  /** The recursive search agrees with the positional definition: `pat` is
      found exactly when it occurs at some position. */
  lemma {:induction false} ContainsIffOccurs(s: string, pat: string)
    ensures Contains(s, pat) <==> exists i: nat :: OccursAt(s, pat, i)
    decreases |s|
  {
    if Contains(s, pat) {
      if s[..|pat|] == pat {
        assert OccursAt(s, pat, 0);
      } else {
        ContainsIffOccurs(s[1..], pat);
        var j: nat :| OccursAt(s[1..], pat, j);
        assert s[1..][j..j + |pat|] == s[j + 1..j + 1 + |pat|];
        assert OccursAt(s, pat, j + 1);
      }
    }
    if exists i: nat :: OccursAt(s, pat, i) {
      var i: nat :| OccursAt(s, pat, i);
      if i > 0 {
        assert s[1..][i - 1..i - 1 + |pat|] == s[i..i + |pat|];
        assert OccursAt(s[1..], pat, i - 1);
        ContainsIffOccurs(s[1..], pat);
      }
    }
  }

  /** `pat` occurs in `s` only as its last `|pat|` characters. */
  predicate OnlyAtEnd(s: string, pat: string) {
    && |s| >= |pat|
    && OccursAt(s, pat, |s| - |pat|)
    && forall i: nat :: i < |s| - |pat| ==> !OccursAt(s, pat, i)
  }

  /** Dropping the first character of a longer string keeps the sole
      occurrence at the end, and there is none at the front. */
  lemma OnlyAtEndTail(s: string, pat: string)
    requires |pat| > 0 && OnlyAtEnd(s, pat) && |s| > |pat|
    ensures s[..|pat|] != pat
    ensures OnlyAtEnd(s[1..], pat)
  {
    assert !OccursAt(s, pat, 0);
    assert s[0..|pat|] == s[..|pat|];
    var t := s[1..];
    assert t[|t| - |pat|..|t|] == s[|s| - |pat|..|s|];
    forall i: nat | i < |t| - |pat|
      ensures !OccursAt(t, pat, i)
    {
      assert !OccursAt(s, pat, i + 1);
      assert t[i..i + |pat|] == s[i + 1..i + 1 + |pat|];
    }
  }

  lemma ReplaceWhole(s: string, pat: string, rep: string)
    requires 0 < |pat| == |s| && s[..|pat|] == pat
    ensures ReplaceAll(s, pat, rep) == rep
  {
    assert ReplaceAll(s[|pat|..], pat, rep) == [];
    assert rep + [] == rep;
  }

  lemma {:induction false} ReplaceOnlyAtEnd(s: string, pat: string, rep: string)
    requires |pat| > 0 && OnlyAtEnd(s, pat)
    ensures ReplaceAll(s, pat, rep) == s[..|s| - |pat|] + rep
    decreases |s|
  {
    if |s| == |pat| {
      assert s[..|pat|] == s[0..|pat|];
      ReplaceWhole(s, pat, rep);
      assert s[..|s| - |pat|] == [];
    } else {
      OnlyAtEndTail(s, pat);
      var t := s[1..];
      ReplaceOnlyAtEnd(t, pat, rep);
      assert ReplaceAll(s, pat, rep) == [s[0]] + ReplaceAll(t, pat, rep);
      assert [s[0]] + t[..|t| - |pat|] == s[..|s| - |pat|];
    }
  }

  /** When `.tex` occurs only as the suffix, the upload's name is the
      intended one. */
  lemma AgreeOnPlainNames(name: string, suffix: string)
    requires IsTexName(name) && OnlyAtEnd(name, TexSuffix)
    ensures UploadEntryName(name, suffix) == IntendedEntryName(name, suffix)
  {
    ReplaceOnlyAtEnd(name, TexSuffix, suffix);
  }
}

=== FILE: wrappers.dfy ===
/** Optional values and success-or-error results, used wherever the program
    returns `None` or raises instead of producing a value. */
module Wrappers {

  datatype Option<+T> = None | Some(value: T)

  datatype Result<+R, +E> = Success(value: R) | Failure(error: E)
}
